=== FILE: README.md ===
# Unpooling and parse-evaluate layers of caffe_ssd, modelled in Dafny

This project models two CPU layers of the `caffe_ssd` fork of Caffe and proves
properties of the model.

**The unpooling layer** (`UnPoolingLayer`) enlarges every (n, c) slice of its
input onto a bigger grid. It has four methods:

- **FIXED** copies each input cell to the clamped midpoint of its output window. Where several cells land on the same output cell, the last writer wins.
- **REP** spreads each input cell over its clipped window. Every output cell is divided by the number of windows that cover it.
- **DIV** is REP with each input first divided by the kernel area.
- **GROUP** uses a second, label input. It replaces every pixel by the mean of its label group in each label channel, divided by the number of label channels, and sums over the label channels.

The geometry (kernel, stride and pad per axis) comes from the parameters. When
a second input is present for a non-GROUP method, it is sized automatically
from that input. Reshape also builds the GROUP member maps and fills the mask
the passes share. The backward pass of every method is proved to be the exact
adjoint (transpose) of its forward pass, over whole blobs.

**The parse-evaluate layer** (`ParseEvaluateLayer`) scores a segmentation against
its ground truth. For every label l it counts, over the batch and over the
pixels whose ground truth is not an ignore label:

- the pixels with ground truth and prediction l;
- the pixels with ground truth l;
- the pixels predicted l.

Representation:

- **Values:** Dtype values are `real`.
- **Labels:** labels are `int`.
- **Slices:** a slice is a row-major `seq<real>` of height x width cells.
- **Blobs:** a blob is `seq<seq<seq<real>>>`, indexed [n][c].
- **Evaluation output:** the parse-evaluate output (1 x num_labels x 1 x 3) is a flat `seq<nat>` of 3 * num_labels counters.
- **Errors:** failed CHECKs become `Result` failures with a named error.

Modules, in dependency order:

- **Wrappers:** `Option` and `Result`.
- **Sums:** finite sums, inner products and accumulations.
- **LinearMaps:** a linear map given by a weight function, its transpose, and the adjoint identity.
- **RowMajor:** index arithmetic.
- **Blob:** shapes.
- **UnpoolConfig:** parameters and the geometry resolution of LayerSetUp.
- **UnpoolGrid:** the input and unpooled grids, windows, midpoints.
- **Overwriting:** last-writer-wins copying and its gradient.
- **Spreading:** normalised spreading over covering windows and its gradient.
- **FixedUnpool**, **OverlapUnpool** (DIV and REP), **GroupUnpool:** the per-slice methods.
- **UnpoolingLayer:** Reshape, the mask, and the blob-level passes.
- **ParseEvaluate.**

## Model

| member | source | states |
|---|---|---|
| UnpoolConfig.CeilDiv | src/caffe/layers/unpooling_layer.cpp:70-78 | the auto kernel and stride is the least q with q * src >= target, the ceiling of target / src |
| UnpoolConfig.AutoAxis | src/caffe/layers/unpooling_layer.cpp:68-94 | auto-sizing of one axis: kernel = ceil(target / src); stride equals kernel except that it collapses to 1 when the kernel equals the target; pad is the floor of half the overshoot |
| UnpoolConfig.Resolve | src/caffe/layers/unpooling_layer.cpp:17-102 | GROUP succeeds exactly when a second input with equal num, height and width is present, and then has unit geometry. For the other methods it fails with the first form check that fails (kernel, pad, stride), and a configured kernel of 0 fails. Once the form checks pass and, without a second input, the kernels are positive, it succeeds exactly when any non-zero pad lies below the kernel on both axes, with the configured geometry (no second input) or the auto-sized one (second input), and otherwise fails with PadNotBelowKernel |
| UnpoolConfig.AutoSizeHitsTarget | src/caffe/layers/unpooling_layer.cpp:68-94 | auto-sizing reproduces the target extent exactly when the overshoot is even, and overshoots it by one when the overshoot is odd |
| UnpoolConfig.ZeroTargetAxis | src/caffe/layers/unpooling_layer.cpp:68-94 | auto-sizing onto an empty target axis gives kernel 0, stride 1 and pad floor((S - 1) / 2); the pad is at least 1 from S = 3 on, and for S of 1 or 2 the pad is 0 and the unpooled extent is S - 1 |
| UnpoolConfig.ZeroTargetHeightRejected | src/caffe/layers/unpooling_layer.cpp:68-100 | an empty target height under a data input of 3 or more rows is rejected by the pad check, whatever the configured forms |
| UnpoolConfig.AutoIgnoresConfiguredValues | src/caffe/layers/unpooling_layer.cpp:47-94 | with a second input, the configured kernel, stride and pad values do not affect the geometry; only the form checks matter |
| UnpoolConfig.AutoSizeOddOvershootExample | src/caffe/layers/unpooling_layer.cpp:68-94 | auto-sizing a 3 x 2 grid towards 7 x 5 gives kernels 3 and 3, pads 1 and 0, and output 7 x 6 |
| UnpoolGrid.Midpoint | src/caffe/layers/unpooling_layer.cpp:191-198 | the truncated midpoint of a window, clamped to the output, always lies inside the unpooled extent |
| UnpoolGrid.Target | src/caffe/layers/unpooling_layer.cpp:189-201 | the flat midpoint index of every input cell lies inside the unpooled slice |
| Overwriting.WritersUpTo | src/caffe/layers/unpooling_layer.cpp:186-204 | after the first k writes, every cell records either -1 (nobody wrote it) or the last of those k sources that targets it |
| Overwriting.LastWriters | src/caffe/layers/unpooling_layer.cpp:186-204 | a cell is -1 iff no source targets it; otherwise it holds the last source that targets it; distinct cells hold distinct writers |
| Overwriting.CopyUpTo | src/caffe/layers/unpooling_layer.cpp:246-270 | the forward copy after k writes gives every cell its current last writer's value, or 0 |
| Overwriting.Copy | src/caffe/layers/unpooling_layer.cpp:246-270 | the FIXED forward copy gives every cell the value of its last writer, or 0 where nobody writes |
| Overwriting.RouteUpTo | src/caffe/layers/unpooling_layer.cpp:393-410 | the first k cells of the backward scan route their gradient to their recorded writer only |
| Overwriting.Route | src/caffe/layers/unpooling_layer.cpp:393-410 | each source receives its target's gradient iff it is that target's last writer; a source overwritten later receives 0 |
| Overwriting.CopyIsLinear | src/caffe/layers/unpooling_layer.cpp:246-270 | the copy is the linear map with weight 1 from each cell's last writer |
| Overwriting.RouteIsTransposed | src/caffe/layers/unpooling_layer.cpp:393-410 | the routing is the transpose of that linear map |
| Overwriting.CopyAdjoint | src/caffe/layers/unpooling_layer.cpp:393-410 | <Copy(x), dy> = <x, Route(dy)>: the FIXED backward is the exact gradient of the forward |
| FixedUnpool.FixedMask | src/caffe/layers/unpooling_layer.cpp:186-204 | the FIXED mask holds, for every unpooled cell, the last input index whose midpoint it is, or -1 iff no input cell maps there |
| FixedUnpool.Forward | src/caffe/layers/unpooling_layer.cpp:246-270 | every unpooled cell holds the input value its mask entry names, and 0 where the mask is -1 |
| FixedUnpool.Backward | src/caffe/layers/unpooling_layer.cpp:393-410 | each input cell gets its midpoint's gradient iff the mask names it; input cells overwritten by a later cell get 0 |
| FixedUnpool.Adjoint | src/caffe/layers/unpooling_layer.cpp:393-410 | the FIXED backward pass is the adjoint of the FIXED forward pass |
| Spreading.SpreadUpTo | src/caffe/layers/unpooling_layer.cpp:304-335 | after k input cells, every covered cell has received the sum of their shares |
| Spreading.Spread | src/caffe/layers/unpooling_layer.cpp:304-335 | every unpooled cell receives each covering input's value divided by the cell's cover count |
| Spreading.SpreadIsLinear | src/caffe/layers/unpooling_layer.cpp:304-335 | spreading is the linear map with weight 1 / count over covered cells |
| Spreading.GatherAll | src/caffe/layers/unpooling_layer.cpp:442-473 | the backward gather is the transpose of spreading: each source collects weight 1 / count from every covered cell |
| Spreading.SpreadAdjoint | src/caffe/layers/unpooling_layer.cpp:442-473 | <Spread(v), dy> = <v, Gather(dy)> |
| Spreading.ReceivedMean | src/caffe/layers/unpooling_layer.cpp:321-326 | a cell covered by m > 0 windows holds the mean of the m covering inputs; an uncovered cell holds 0 |
| Spreading.ReceivedConstant | src/caffe/layers/unpooling_layer.cpp:304-335 | on a constant input, every covered cell holds that constant |
| OverlapUnpool.CoverMaskUpTo | src/caffe/layers/unpooling_layer.cpp:209-225 | after k input cells, every unpooled cell counts the windows among them that cover it |
| OverlapUnpool.CoverMask | src/caffe/layers/unpooling_layer.cpp:205-225 | the DIV/REP mask counts, for every unpooled cell, exactly the clipped windows covering it |
| OverlapUnpool.PaddedSpanIsKernel | src/caffe/layers/unpooling_layer.cpp:277-283 | the window end clipped to the output plus pad is never below window start plus kernel, so each axis span is the kernel |
| OverlapUnpool.DivAreaIsKernelArea | src/caffe/layers/unpooling_layer.cpp:277-283 | DIV's unpool_size is the full kernel area (at least 1) for every input cell, even at the border |
| OverlapUnpool.DivShare | src/caffe/layers/unpooling_layer.cpp:283-288 | DIV first divides each input by the kernel area |
| OverlapUnpool.DivShares | src/caffe/layers/unpooling_layer.cpp:283-288 | the whole slice of DIV shares is the input divided by the kernel area |
| OverlapUnpool.RepForwardIsLinear | src/caffe/layers/unpooling_layer.cpp:304-335 | REP forward is the linear map with weight 1 / mask over covered cells |
| OverlapUnpool.RepBackward | src/caffe/layers/unpooling_layer.cpp:442-473 | REP backward is the transpose of the REP weight map: bottom_diff[s] collects dy[u] / mask[u] from every cell of its window |
| OverlapUnpool.RepAdjoint | src/caffe/layers/unpooling_layer.cpp:442-473 | REP backward is the adjoint of REP forward |
| OverlapUnpool.DivForwardIsLinear | src/caffe/layers/unpooling_layer.cpp:271-303 | DIV forward is the linear map with weight 1 / (kernel area * mask) over covered cells |
| OverlapUnpool.DivBackward | src/caffe/layers/unpooling_layer.cpp:411-441 | DIV backward is the transpose of the DIV weight map: bottom_diff[s] collects dy[u] / (kernel area * mask[u]) from every cell of its window |
| OverlapUnpool.DivAdjoint | src/caffe/layers/unpooling_layer.cpp:411-441 | DIV backward is the adjoint of DIV forward |
| OverlapUnpool.RepForward | src/caffe/layers/unpooling_layer.cpp:304-335 | every REP output cell is the mean of the inputs whose windows cover it, and 0 where no window covers it |
| OverlapUnpool.DivForward | src/caffe/layers/unpooling_layer.cpp:271-303 | every DIV output cell is the REP output cell divided by the kernel area |
| OverlapUnpool.RepConstant | src/caffe/layers/unpooling_layer.cpp:304-335 | REP reproduces a constant input on every covered cell |
| GroupUnpool.Relabel | src/caffe/layers/unpooling_layer.cpp:126-145 | labels are renumbered 0, 1, ... in order of first appearance: equal labels get equal ids, different labels get different ids, and the number of ids is the number of distinct labels |
| GroupUnpool.MembersSpec | src/caffe/layers/unpooling_layer.cpp:147-165 | a group's member list holds exactly the pixels with that id, in increasing order |
| GroupUnpool.ListsPartition | src/caffe/layers/unpooling_layer.cpp:147-165 | the member lists are non-empty and increasing, and a pixel is in list g iff its id is g |
| GroupUnpool.SameGroupSameList | src/caffe/layers/unpooling_layer.cpp:126-165 | two pixels share a member list iff they carry the same original label |
| GroupUnpool.AddAt | src/caffe/layers/unpooling_layer.cpp:363-365 | adding a value over a member list changes exactly the listed cells |
| GroupUnpool.AssignUpTo | src/caffe/layers/unpooling_layer.cpp:359-367 | after the first k groups, each cell whose group is among them has its group's value added |
| GroupUnpool.SliceForward | src/caffe/layers/unpooling_layer.cpp:347-371 | one label channel adds to every cell the mean of its group divided by the number of label channels |
| GroupUnpool.SliceBackward | src/caffe/layers/unpooling_layer.cpp:481-490 | one label channel adds to every input cell the group mean of the gradient divided by the number of label channels |
| GroupUnpool.BackValueIsMean | src/caffe/layers/unpooling_layer.cpp:485-488 | the backward's division of each term by size, then by G, sums to the forward's group mean |
| GroupUnpool.ListSumDivIsScaled | src/caffe/layers/unpooling_layer.cpp:485-488 | summing terms divided by a, then b, equals the sum divided by a * b |
| GroupUnpool.MeanIsGroupAverage | src/caffe/layers/unpooling_layer.cpp:351-358 | the mean over a member list is the average over all pixels with the same id, divided by G |
| GroupUnpool.Forward | src/caffe/layers/unpooling_layer.cpp:336-374 | GROUP forward at a pixel is the sum over label channels of that pixel's group average (the independent GroupAverage over all pixels with the same id) divided by the number of label channels |
| GroupUnpool.ForwardConstant | src/caffe/layers/unpooling_layer.cpp:336-374 | GROUP unpooling reproduces a constant input exactly |
| GroupUnpool.Backward | src/caffe/layers/unpooling_layer.cpp:474-498 | GROUP backward is GROUP forward applied to the gradient |
| GroupUnpool.MeanIsApply | src/caffe/layers/unpooling_layer.cpp:351-358 | a group mean is the linear map with weight 1 / (size * G) inside the group and 0 across groups |
| GroupUnpool.GroupAdjoint | src/caffe/layers/unpooling_layer.cpp:474-498 | GROUP backward is the adjoint of GROUP forward |
| UnpoolingLayer.FillMask | src/caffe/layers/unpooling_layer.cpp:180-233 | FIXED: the last writer per cell, or -1. DIV/REP: the cover counts. GROUP: the number of label channels everywhere |
| UnpoolingLayer.ResolvedKernels | src/caffe/layers/unpooling_layer.cpp:54-55 | every resolved geometry has positive kernels on both axes |
| UnpoolingLayer.GroupRow | src/caffe/layers/unpooling_layer.cpp:127-145 | each label channel of one sample is relabelled into a well-formed grouping |
| UnpoolingLayer.GroupMaps | src/caffe/layers/unpooling_layer.cpp:126-165 | every (sample, label channel) slice is relabelled into a well-formed grouping |
| UnpoolingLayer.PlanFor | src/caffe/layers/unpooling_layer.cpp:105-177 | Reshape's grids. A configuration error is passed through. GROUP always succeeds and keeps the input extents, even an empty grid. Otherwise each extent is (src - 1) * stride - 2 * pad + kernel, failing iff one is below 1. Auto-sized extents land within one of the target |
| UnpoolingLayer.EmptyInputSetupAccepted | src/caffe/layers/unpooling_layer.cpp:47-66 | an explicit kernel of 3 accepts an empty 0 x 2 data input, giving a 2 x 4 unpooled grid with no source cells |
| UnpoolingLayer.EmptyGroupSetupAccepted | src/caffe/layers/unpooling_layer.cpp:19-29 | GROUP accepts an empty 0 x 2 data input with matching labels, and its unpooled grid is that same 0 x 2 grid |
| UnpoolingLayer.KernelSetupAccepted | src/caffe/test/test_unpooling_layer.cpp:48-59 | on the tests' 3 x 2 input, kernel 3 is accepted with a 5 x 4 output |
| UnpoolingLayer.StridedSetupAccepted | src/caffe/test/test_unpooling_layer.cpp:61-73 | kernel 3 with stride 2 is accepted with a 7 x 5 output |
| UnpoolingLayer.PaddedSetupAccepted | src/caffe/test/test_unpooling_layer.cpp:75-89 | kernel 3, stride 2 and pad 1 under DIV is accepted with a 5 x 3 output |
| UnpoolingLayer.Reshape | src/caffe/layers/unpooling_layer.cpp:105-177 | it fails exactly when the grids fail. On success the layer is consistent: its mask is the filled one, and for GROUP every label slice has a well-formed relabelling |
| UnpoolingLayer.SampleForward | src/caffe/layers/unpooling_layer.cpp:236-378 | every channel of a sample goes through the method's slice pass with the same mask |
| UnpoolingLayer.Forward | src/caffe/layers/unpooling_layer.cpp:236-378 | the output blob has the unpooled shape, and each sample is its slices' forward passes |
| UnpoolingLayer.SampleBackward | src/caffe/layers/unpooling_layer.cpp:381-502 | every channel of a sample goes through the method's slice backward pass |
| UnpoolingLayer.Gradient | src/caffe/layers/unpooling_layer.cpp:386-502 | the bottom gradient is each sample's slice backward passes, with the bottom shape |
| UnpoolingLayer.Backward | src/caffe/layers/unpooling_layer.cpp:381-502 | with propagate_down false, the bottom diff is left unchanged; otherwise it is overwritten by the gradient |
| UnpoolingLayer.SliceForward | src/caffe/layers/unpooling_layer.cpp:236-378 | slice (n, c) goes through the forward pass of the configured method, with the mask Reshape built for it; its partner is UnpoolingLayer.SliceAdjoint |
| UnpoolingLayer.SliceBackward | src/caffe/layers/unpooling_layer.cpp:381-502 | slice (n, c) of the top gradient goes through the backward pass of the configured method, with the mask Reshape built for it; its partner is UnpoolingLayer.SliceAdjoint |
| UnpoolingLayer.SliceAdjoint | src/caffe/layers/unpooling_layer.cpp:381-502 | for every method, the slice backward pass is the adjoint of the slice forward pass |
| UnpoolingLayer.SampleAdjoint | src/caffe/layers/unpooling_layer.cpp:381-502 | the adjoint identity holds per sample |
| UnpoolingLayer.Adjoint | src/caffe/layers/unpooling_layer.cpp:236-502 | <Forward(bottom), top_diff> = <bottom, Backward(top_diff)> over whole blobs, for every method |
| UnpoolingLayer.GroupGradientIsForward | src/caffe/layers/unpooling_layer.cpp:474-498 | for GROUP, the gradient is the forward pass applied to top_diff |
| ParseEvaluate.SetUp | src/caffe/layers/parse_evaluate_layer.cpp:14-25 | fails iff num_labels is missing; otherwise keeps num_labels and makes the ignore set exactly the listed ignore labels |
| ParseEvaluate.Reshape | src/caffe/layers/parse_evaluate_layer.cpp:28-37 | succeeds iff the num and channels are equal, the channels are 1, the heights are equal and the prediction is at least as wide. Then the output is 1 x num_labels x 1 x 3. Each failure names the first failing check |
| ParseEvaluate.CountedIffPresent | src/caffe/layers/parse_evaluate_layer.cpp:73-93 | within one image, a label gets a non-zero counter exactly when it is the ground truth or prediction of some pixel that is not ignored |
| ParseEvaluate.ImageLabelsSuffice | src/caffe/layers/parse_evaluate_layer.cpp:53-96 | visiting only the labels present in the image's ground truth or prediction misses no counts: every label with a non-zero counter is among them |
| ParseEvaluate.Flatten | src/caffe/layers/parse_evaluate_layer.cpp:94-96 | label l's three counters sit at 3l, 3l + 1 and 3l + 2 |
| ParseEvaluate.CountLabel | src/caffe/layers/parse_evaluate_layer.cpp:74-93 | the per-label loop counts exactly the reference tally of that label over the non-ignored pixels |
| ParseEvaluate.AddImage | src/caffe/layers/parse_evaluate_layer.cpp:51-97 | one image adds its tally to every in-range label's row and leaves every other row unchanged |
| ParseEvaluate.Forward | src/caffe/layers/parse_evaluate_layer.cpp:40-100 | fails iff the counts differ (CountMismatch) or num is 0, where the division by num at line 49 faults (EmptyBatch); otherwise, for every label l < num_labels, the three output cells are its correct, ground-truth and predicted counts over the batch |
| ParseEvaluate.SameImageSize | src/caffe/layers/parse_evaluate_layer.cpp:42-49 | with equal num and channels, equal counts mean equal per-image sizes |
| ParseEvaluate.CorrectBounded | src/caffe/layers/parse_evaluate_layer.cpp:80-96 | for every label, the correct count is at most the ground-truth count and at most the predicted count |
| ParseEvaluate.IgnoredLabelNoTruth | src/caffe/layers/parse_evaluate_layer.cpp:60-89 | an ignore label never gains ground-truth or correct counts |
| ParseEvaluate.IgnoredPixelsInert | src/caffe/layers/parse_evaluate_layer.cpp:60-93 | changing the prediction or the label at ignored pixels (keeping them ignored) changes no counter |
| ParseEvaluate.Totals | src/caffe/layers/parse_evaluate_layer.cpp:51-97 | when labels are in range, the ground-truth counters and the prediction counters each sum to the number of non-ignored pixels |
| ParseEvaluate.BatchCountedIffPresent | src/caffe/layers/parse_evaluate_layer.cpp:51-97 | over the batch, a label's counters are non-zero exactly when some non-ignored pixel has it as ground truth or prediction |
| ParseEvaluate.WrittenLabelsSuffice | src/caffe/layers/parse_evaluate_layer.cpp:53-96 | the labels the source writes, which are all values in ground truth or prediction with ignored pixels included, contain every label with a non-zero count. IgnoreLabelWrittenOutOfRange shows the containment is strict |
| ParseEvaluate.IgnoreLabelWrittenOutOfRange | src/caffe/layers/parse_evaluate_layer.cpp:94-96 | with num_labels 2 and ignore label 255, a valid batch makes the source write cell 765 of a 6-cell output |

## Left out

- Floating point: Dtype values are exact reals. Float rounding is not modelled, including the float `ceil` and `floor` of auto-sizing (exact integer ceiling and floor instead).
- The Dtype-to-int casts of labels and group ids: labels are integers from the start.
- 32-bit integer overflow of indices and counters: integers are unbounded.
- GPU code paths, the normalize layer, the blob memory and pointer plumbing, and the protobuf machinery.
  - The defaults of unset stride (1) and pad (0) are written as constants.
- UnpoolingLayer.PlanFor: for FIXED, DIV and REP, an unpooled extent below 1 is the error EmptyOutput. The source does not check it and goes on with an empty or negative top shape. GROUP's unpooled extents are its input extents, so they are never negative, and an empty GROUP grid is accepted as in the source.
- UnpoolingLayer.Reshape: when auto-sizing (a method other than GROUP with a second input), requires a data input with height and width at least 1. The source's auto-sizing divides by those extents and never checks them. GROUP and explicit kernels accept an empty data input, as the source does.
- UnpoolingLayer.Reshape: when auto-sizing, also requires a target with height and width at least 1. The source does not divide by these extents. A 0 target extent gives an auto-sized kernel of 0, stride 1 and pad floor((S - 1) / 2), where S is the data extent on that axis. When S is 3 or more, that pad is at least 1 and the source aborts at its pad check. When S is 1 or 2, the pad is 0 and the unpooled extent is S - 1 (see UnpoolConfig.ZeroTargetAxis and UnpoolConfig.ZeroTargetHeightRejected). The model leaves the second, degenerate geometry out rather than carry a plan with a 0 kernel.
- UnpoolingLayer.PlanFor: the same two auto-sizing requirements as Reshape, for the same reasons.
- UnpoolConfig.Resolve: when auto-sizing, requires a data input with height and width at least 1, because it divides by them.
- UnpoolConfig.Resolve: the source's second kernel check (lines 34-37) can never fire after the first. The model keeps it as an unreachable error, and the contract does not mention it.
- ParseEvaluate.Forward: requires that Reshape succeeded, so the num check of line 42 always passes. The count check is modelled as an error, and so is the integer division by a num of 0 at line 49, which the source does not guard.
- ParseEvaluate.Forward: a label of a non-ignored pixel outside [0, num_labels) would make the source write outside its output. The model skips such labels instead (see Findings).
- The unit tests that expect other DIV and REP values, and an auto-sized width of 5 where this code gives 6, disagree with the code. The model follows the code (see UnpoolConfig.AutoSizeOddOvershootExample).

## Findings

| source | as written | input that shows it | evidently intended | confidence | as-written member | corrected member |
|---|---|---|---|---|---|---|
| src/caffe/layers/parse_evaluate_layer.cpp:94-96 | The label set is built from every pixel, ignored ones included (lines 53-58). Its counters are then written at `top_data[label*3]` even when the label is an ignore label outside [0, num_labels). | num_labels 2, ignore label 255, one image with ground truth [255] and prediction [0]: the source writes cells 765-767 of a 6-cell output | only labels in [0, num_labels) are written; ignored pixels contribute nothing | not executed | ParseEvaluate.IgnoreLabelWrittenOutOfRange | ParseEvaluate.Forward |

=== FILE: blob.dfy ===
/** Blob shapes: the four extents of a num x channels x height x width blob. */
module Blob {
  datatype Shape = Shape(num: nat, channels: nat, height: nat, width: nat)

  /** Number of cells of a blob of shape s. */
  function Volume(s: Shape): nat
  {
    s.num * s.channels * (s.height * s.width)
  }
}

=== FILE: fixed_unpool.dfy ===
/**
 * FIXED unpooling: every source cell is copied to the midpoint of its window,
 * later source cells (row-major) overwriting earlier ones. The mask records,
 * per destination cell, the source index that last wrote it, or -1.
 */
module FixedUnpool {
  import opened Sums
  import opened LinearMaps
  import opened UnpoolConfig
  import opened UnpoolGrid
  import opened Overwriting

  /** Each source cell's FIXED target: the clamped midpoint of its window. */
  function Midpoints(p: Plan): nat -> nat
  {
    (s: nat) => if ValidPlan(p) && s < SrcCount(p) then Target(p, s) else 0
  }

  /** Every midpoint is a destination cell. */
  lemma MidpointsInRange(p: Plan)
    requires ValidPlan(p)
    ensures Targets(SrcCount(p), DstCount(p), Midpoints(p))
  {
  }

  /**
   * The FIXED mask: -1 everywhere, then each source index written at its
   * midpoint in row-major order. Its entries name, per cell, the last source
   * whose midpoint it is.
   */
  function FixedMask(p: Plan): (m: seq<int>)
    requires ValidPlan(p)
    ensures |m| == DstCount(p)
    ensures forall u :: 0 <= u < |m| ==> m[u] == NoSource || 0 <= m[u] < SrcCount(p)
    ensures forall u :: 0 <= u < |m| && m[u] != NoSource ==> Target(p, m[u]) == u
    ensures forall u :: 0 <= u < |m| && m[u] != NoSource ==>
      forall t :: m[u] < t < SrcCount(p) ==> Target(p, t) != u
    ensures forall u :: 0 <= u < |m| ==>
      (m[u] == NoSource <==> forall s :: 0 <= s < SrcCount(p) ==> Target(p, s) != u)
  {
    MidpointsInRange(p);
    var m := LastWriters(SrcCount(p), DstCount(p), Midpoints(p));
    assert forall s :: 0 <= s < SrcCount(p) ==> Midpoints(p)(s) == Target(p, s);
    m
  }

  /** FIXED forward pass on one (n, c) slice: top[midpoint(s)] = x[s] in row-major order. */
  function Forward(p: Plan, x: seq<real>): (y: seq<real>)
    requires ValidPlan(p) && |x| == SrcCount(p)
    ensures |y| == DstCount(p)
    ensures forall u :: 0 <= u < |y| ==>
      y[u] == (if FixedMask(p)[u] == NoSource then 0.0 else x[FixedMask(p)[u]])
  {
    MidpointsInRange(p);
    Copy(SrcCount(p), DstCount(p), Midpoints(p), x)
  }

  /**
   * FIXED backward pass on one (n, c) slice: bottom_diff[mask[u]] = dy[u] for
   * every cell with a writer. A source cell receives the gradient at its
   * midpoint when it is the recorded writer there and 0 when overwritten.
   */
  function Backward(p: Plan, mask: seq<int>, dy: seq<real>): (dx: seq<real>)
    requires ValidPlan(p) && mask == FixedMask(p) && |dy| == DstCount(p)
    ensures |dx| == SrcCount(p)
    ensures forall s :: 0 <= s < |dx| ==>
      dx[s] == (if mask[Target(p, s)] == s then dy[Target(p, s)] else 0.0)
    ensures forall s, t :: 0 <= s < t < |dx| && Target(p, t) == Target(p, s) ==> dx[s] == 0.0
  {
    MidpointsInRange(p);
    var dx := Route(SrcCount(p), DstCount(p), Midpoints(p), mask, dy);
    assert forall s :: 0 <= s < SrcCount(p) ==> Midpoints(p)(s) == Target(p, s);
    dx
  }

  /** FIXED backward is the exact adjoint of FIXED forward. */
  lemma Adjoint(p: Plan, x: seq<real>, dy: seq<real>)
    requires ValidPlan(p) && |x| == SrcCount(p) && |dy| == DstCount(p)
    ensures Dot(Forward(p, x), dy) == Dot(x, Backward(p, FixedMask(p), dy))
  {
    MidpointsInRange(p);
    CopyAdjoint(SrcCount(p), DstCount(p), Midpoints(p), x, dy);
  }
}

=== FILE: group_unpool.dfy ===
/**
 * GROUP unpooling: a second input assigns every pixel of each of its G
 * channels to a group. Per label channel the labels are renumbered densely in
 * order of first appearance, each group's member list is collected in
 * row-major order, and the forward pass replaces every pixel by the mean of
 * its group divided by G, summed over the G label channels. The output has
 * the input's spatial size.
 */
module GroupUnpool {
  import opened Sums
  import opened LinearMaps

  /** Pixel i carries a label no earlier pixel carries. */
  predicate IsFirst(labels: seq<int>, i: nat)
    requires i < |labels|
  {
    forall j :: 0 <= j < i ==> labels[j] != labels[i]
  }

  /** Number of distinct labels among the first k pixels, counted at their first appearance. */
  function DistinctUpTo(labels: seq<int>, k: nat): nat
    requires k <= |labels|
  {
    if k == 0 then 0 else DistinctUpTo(labels, k - 1) + (if IsFirst(labels, k - 1) then 1 else 0)
  }

  /**
   * ids renumbers labels densely: two pixels share an id exactly when they
   * share a label, the first appearance of a new label gets the number of
   * labels seen before it, and every id below groups is used.
   */
  predicate Relabelling(labels: seq<int>, ids: seq<nat>, groups: nat)
  {
    && |ids| == |labels|
    && groups == DistinctUpTo(labels, |labels|)
    && (forall i :: 0 <= i < |ids| ==> ids[i] < groups)
    && (forall i, j :: 0 <= i < |ids| && 0 <= j < |ids| ==> (ids[i] == ids[j] <==> labels[i] == labels[j]))
    && (forall i :: 0 <= i < |ids| && IsFirst(labels, i) ==> ids[i] == DistinctUpTo(labels, i))
    && (forall g: nat :: g < groups ==> g in ids)
  }

  /**
   * State of the relabelling scan after the first i pixels: seen maps each
   * label met so far to its id, count ids are handed out, and the ghost
   * sequence firsts records the pixel at which each id was handed out.
   */
  ghost predicate Scanned(labels: seq<int>, i: nat, seen: map<int, nat>, count: nat, firsts: seq<nat>, ids: seq<nat>)
  {
    && i <= |labels| && |ids| == i && |firsts| == count
    && count == DistinctUpTo(labels, i)
    && (forall j :: 0 <= j < i ==> labels[j] in seen && ids[j] == seen[labels[j]])
    && (forall g :: 0 <= g < count ==> firsts[g] < i && ids[firsts[g]] == g)
    && (forall l {:trigger l in seen} :: l in seen ==> seen[l] < count && labels[firsts[seen[l]]] == l)
    && (forall j {:trigger IsFirst(labels, j)} :: 0 <= j < i && IsFirst(labels, j) ==> ids[j] == DistinctUpTo(labels, j))
  }

  /** A label not in the map is new: it gets the next id. */
  lemma ScanNew(labels: seq<int>, i: nat, seen: map<int, nat>, count: nat, firsts: seq<nat>, ids: seq<nat>)
    requires Scanned(labels, i, seen, count, firsts, ids) && i < |labels| && labels[i] !in seen
    ensures Scanned(labels, i + 1, seen[labels[i] := count], count + 1, firsts + [i], ids + [count])
  {
    assert IsFirst(labels, i);
  }

  /** A label already in the map is not new: it gets its recorded id. */
  lemma ScanKnown(labels: seq<int>, i: nat, seen: map<int, nat>, count: nat, firsts: seq<nat>, ids: seq<nat>)
    requires Scanned(labels, i, seen, count, firsts, ids) && i < |labels| && labels[i] in seen
    ensures Scanned(labels, i + 1, seen, count, firsts, ids + [seen[labels[i]]])
  {
    var l := labels[i];
    assert l in seen;
    var g := seen[l];
    assert g < count && labels[firsts[g]] == l;
    var j := firsts[g];
    assert labels[j] == labels[i] && j < i;
    assert !IsFirst(labels, i);
  }

  /** The finished scan is a relabelling. */
  lemma ScanDone(labels: seq<int>, seen: map<int, nat>, count: nat, firsts: seq<nat>, ids: seq<nat>)
    requires Scanned(labels, |labels|, seen, count, firsts, ids)
    ensures Relabelling(labels, ids, count)
  {
    forall g: nat | g < count
      ensures g in ids
    {
      assert ids[firsts[g]] == g;
    }
  }

  /** The relabelling scan of one label channel, keeping a map from label to id. */
  method Relabel(labels: seq<int>) returns (ids: seq<nat>, groups: nat)
    ensures Relabelling(labels, ids, groups)
  {
    var seen: map<int, nat> := map[];
    var count: nat := 0;
    ghost var firsts: seq<nat> := [];
    ids := [];
    for i := 0 to |labels|
      invariant Scanned(labels, i, seen, count, firsts, ids)
    {
      if labels[i] !in seen {
        ScanNew(labels, i, seen, count, firsts, ids);
        seen := seen[labels[i] := count];
        ids := ids + [count];
        firsts := firsts + [i];
        count := count + 1;
      } else {
        ScanKnown(labels, i, seen, count, firsts, ids);
        ids := ids + [seen[labels[i]]];
      }
    }
    ScanDone(labels, seen, count, firsts, ids);
    groups := count;
  }

  /** Cells below k whose id is g, in increasing order. */
  function MembersUpTo(ids: seq<nat>, g: nat, k: nat): (m: seq<nat>)
    requires k <= |ids|
  {
    if k == 0 then [] else
      var prev := MembersUpTo(ids, g, k - 1);
      if ids[k - 1] == g then prev + [k - 1] else prev
  }

  /** The member list of group g, as the row-major collection scan builds it. */
  function Members(ids: seq<nat>, g: nat): (m: seq<nat>)
  {
    MembersUpTo(ids, g, |ids|)
  }

  /** The list for g below k holds exactly the cells below k with id g, in increasing order. */
  lemma {:induction false} MembersUpToSpec(ids: seq<nat>, g: nat, k: nat)
    requires k <= |ids|
    ensures forall v: nat :: v in MembersUpTo(ids, g, k) <==> v < k && ids[v] == g
    ensures forall i :: 0 <= i < |MembersUpTo(ids, g, k)| ==> MembersUpTo(ids, g, k)[i] < k
    ensures forall i, j :: 0 <= i < j < |MembersUpTo(ids, g, k)| ==> MembersUpTo(ids, g, k)[i] < MembersUpTo(ids, g, k)[j]
  {
    if k > 0 {
      MembersUpToSpec(ids, g, k - 1);
    }
  }

  /** Group g's member list holds exactly the cells with id g, in increasing order. */
  lemma MembersSpec(ids: seq<nat>, g: nat)
    ensures forall v: nat :: v in Members(ids, g) <==> v < |ids| && ids[v] == g
    ensures forall i :: 0 <= i < |Members(ids, g)| ==> Members(ids, g)[i] < |ids|
    ensures forall i, j :: 0 <= i < j < |Members(ids, g)| ==> Members(ids, g)[i] < Members(ids, g)[j]
  {
    MembersUpToSpec(ids, g, |ids|);
  }

  /** The member lists of groups 0 .. groups - 1. */
  function MemberLists(ids: seq<nat>, groups: nat): (lists: seq<seq<nat>>)
    ensures |lists| == groups
  {
    seq(groups, (g: nat) => Members(ids, g))
  }

  /** For a relabelling, the member lists are nonempty, ascending, and hold every cell exactly once. */
  lemma ListsPartition(labels: seq<int>, ids: seq<nat>, groups: nat)
    requires Relabelling(labels, ids, groups)
    ensures forall g :: 0 <= g < groups ==> |MemberLists(ids, groups)[g]| >= 1
    ensures forall g, i, j :: 0 <= g < groups && 0 <= i < j < |MemberLists(ids, groups)[g]| ==>
      MemberLists(ids, groups)[g][i] < MemberLists(ids, groups)[g][j]
    ensures forall v: nat, g :: v < |labels| && 0 <= g < groups ==>
      (v in MemberLists(ids, groups)[g] <==> g == ids[v])
  {
    forall g: nat | g < groups
      ensures MemberLists(ids, groups)[g] == Members(ids, g)
    {
    }
    forall g: nat
      ensures forall v: nat :: v in Members(ids, g) <==> v < |ids| && ids[v] == g
      ensures forall i, j :: 0 <= i < j < |Members(ids, g)| ==> Members(ids, g)[i] < Members(ids, g)[j]
    {
      MembersSpec(ids, g);
    }
    forall g: nat | g < groups
      ensures |MemberLists(ids, groups)[g]| >= 1
    {
      assert g in ids;
      var v :| 0 <= v < |ids| && ids[v] == g;
      assert v in Members(ids, g);
    }
  }

  /** The member lists of two pixels agree exactly when their labels do. */
  lemma SameGroupSameList(labels: seq<int>, ids: seq<nat>, groups: nat, v: nat, w: nat)
    requires Relabelling(labels, ids, groups) && v < |labels| && w < |labels|
    ensures labels[v] == labels[w] <==> Members(ids, ids[v]) == Members(ids, ids[w])
  {
    MembersSpec(ids, ids[w]);
    if Members(ids, ids[v]) == Members(ids, ids[w]) {
      MembersSpec(ids, ids[v]);
      assert v in Members(ids, ids[w]);
    }
  }

  /** The relabelled groups of one label channel: an id per pixel, below groups. */
  datatype Grouping = Grouping(ids: seq<nat>, groups: nat)

  predicate WellFormed(gr: Grouping, n: nat)
  {
    |gr.ids| == n && forall u :: 0 <= u < n ==> gr.ids[u] < gr.groups
  }

  /** A relabelling of n labels is a well-formed grouping of n pixels. */
  lemma RelabellingWellFormed(labels: seq<int>, ids: seq<nat>, groups: nat)
    requires Relabelling(labels, ids, groups)
    ensures WellFormed(Grouping(ids, groups), |labels|)
  {
  }

  // ---------------------------------------------------------------------
  // Sums over member lists

  /** Sum of x over the cells of a member list, in list order. */
  function ListSum(x: seq<real>, m: seq<nat>): real
  {
    if |m| == 0 then 0.0 else ListSum(x, m[..|m| - 1]) + At(x, m[|m| - 1])
  }

  predicate InGroup(ids: seq<nat>, g: nat, v: nat)
  {
    v < |ids| && ids[v] == g
  }

  /** x[v] on the cells of group g, 0 elsewhere. */
  function Masked(ids: seq<nat>, g: nat, x: seq<real>, v: nat): real
  {
    if InGroup(ids, g, v) then At(x, v) else 0.0
  }

  /** Summing over a member list is summing over all cells with the group's id. */
  lemma {:induction false} ListSumMembers(ids: seq<nat>, g: nat, x: seq<real>, k: nat)
    requires k <= |ids|
    ensures ListSum(x, MembersUpTo(ids, g, k)) == Sum(k, (v: nat) => Masked(ids, g, x, v))
  {
    if k > 0 {
      var f := (v: nat) => Masked(ids, g, x, v);
      ListSumMembers(ids, g, x, k - 1);
      var prev := MembersUpTo(ids, g, k - 1);
      assert Sum(k, f) == Sum(k - 1, f) + Masked(ids, g, x, k - 1);
      if ids[k - 1] == g {
        var m := prev + [k - 1];
        assert MembersUpTo(ids, g, k) == m;
        assert m[..|m| - 1] == prev;
        assert ListSum(x, m) == ListSum(x, prev) + At(x, k - 1);
      } else {
        assert MembersUpTo(ids, g, k) == prev;
      }
    }
  }

  /** A member list holds as many cells as carry the group's id. */
  lemma {:induction false} MembersCount(ids: seq<nat>, g: nat, k: nat)
    requires k <= |ids|
    ensures |MembersUpTo(ids, g, k)| == Count(k, (v: nat) => InGroup(ids, g, v))
  {
    if k > 0 {
      MembersCount(ids, g, k - 1);
    }
  }

  /** Sum over the list of dy[v] / a / b, each term divided separately as the backward loop does. */
  function ListSumDiv(dy: seq<real>, m: seq<nat>, a: real, b: real): real
    requires a != 0.0 && b != 0.0
  {
    if |m| == 0 then 0.0 else ListSumDiv(dy, m[..|m| - 1], a, b) + At(dy, m[|m| - 1]) / a / b
  }

  lemma RealDivStep(s: real, t: real, a: real, b: real)
    requires a != 0.0 && b != 0.0
    ensures s / (a * b) + t / a / b == (s + t) / (a * b)
  {
    assert t / a / b == t / (a * b);
  }

  /** Dividing every term by a and b is dividing the list's sum by a * b. */
  lemma {:induction false} ListSumDivIsScaled(dy: seq<real>, m: seq<nat>, a: real, b: real)
    requires a != 0.0 && b != 0.0
    ensures ListSumDiv(dy, m, a, b) == ListSum(dy, m) / (a * b)
  {
    if |m| > 0 {
      ListSumDivIsScaled(dy, m[..|m| - 1], a, b);
      RealDivStep(ListSum(dy, m[..|m| - 1]), At(dy, m[|m| - 1]), a, b);
    }
  }

  // ---------------------------------------------------------------------
  // Scattering group values back to their members

  /** y with v added at every cell of the ascending list m. */
  function AddAt(y: seq<real>, m: seq<nat>, v: real): (r: seq<real>)
    requires forall i :: 0 <= i < |m| ==> m[i] < |y|
    requires forall i, j :: 0 <= i < j < |m| ==> m[i] < m[j]
    ensures |r| == |y|
    ensures forall u :: 0 <= u < |y| ==> r[u] == y[u] + (if u in m then v else 0.0)
  {
    if |m| == 0 then y else
      var last := m[|m| - 1];
      var r := AddAt(y, m[..|m| - 1], v);
      assert forall u :: u in m <==> u in m[..|m| - 1] || u == last;
      assert last !in m[..|m| - 1];
      r[last := r[last] + v]
  }

  /**
   * y after adding values[g] to every member of group g, for the groups below
   * k in increasing id order: every cell receives its own group's value.
   */
  function AssignUpTo(y: seq<real>, ids: seq<nat>, values: seq<real>, k: nat): (r: seq<real>)
    requires |ids| == |y| && k <= |values|
    ensures |r| == |y|
    ensures forall u :: 0 <= u < |y| ==> r[u] == y[u] + (if ids[u] < k then values[ids[u]] else 0.0)
  {
    if k == 0 then y else
      var r := AssignUpTo(y, ids, values, k - 1);
      var m := Members(ids, k - 1);
      MembersSpec(ids, k - 1);
      assert forall i :: 0 <= i < |m| ==> m[i] in m;
      AddAt(r, m, values[k - 1])
  }

  // ---------------------------------------------------------------------
  // Group means and the passes of one (n, c) slice

  /** The forward group mean: the list's sum divided by its size times the number G of label channels. */
  function Mean(x: seq<real>, m: seq<nat>, G: nat): real
    requires G >= 1
  {
    if |m| == 0 then 0.0 else ListSum(x, m) / ((|m| * G) as real)
  }

  function Means(gr: Grouping, G: nat, x: seq<real>): (r: seq<real>)
    requires G >= 1
    ensures |r| == gr.groups
  {
    seq(gr.groups, (g: nat) => Mean(x, Members(gr.ids, g), G))
  }

  /** The backward group value: dy / size / G summed over the members. */
  function BackValue(dy: seq<real>, m: seq<nat>, G: nat): real
    requires G >= 1
  {
    if |m| == 0 then 0.0 else ListSumDiv(dy, m, |m| as real, G as real)
  }

  function BackValues(gr: Grouping, G: nat, dy: seq<real>): (r: seq<real>)
    requires G >= 1
    ensures |r| == gr.groups
  {
    seq(gr.groups, (g: nat) => BackValue(dy, Members(gr.ids, g), G))
  }

  /** Dividing each term by size and G gives the forward mean. */
  lemma BackValueIsMean(dy: seq<real>, m: seq<nat>, G: nat)
    requires G >= 1
    ensures BackValue(dy, m, G) == Mean(dy, m, G)
  {
    if |m| > 0 {
      ListSumDivIsScaled(dy, m, |m| as real, G as real);
      assert (|m| as real) * (G as real) == (|m| * G) as real;
    }
  }

  /**
   * One label channel's contribution added to y: every cell receives the
   * mean of its own group divided by G.
   */
  function SliceForward(gr: Grouping, G: nat, x: seq<real>, y: seq<real>): (r: seq<real>)
    requires G >= 1 && WellFormed(gr, |y|)
    ensures |r| == |y|
    ensures forall u :: 0 <= u < |y| ==> r[u] == y[u] + Mean(x, Members(gr.ids, gr.ids[u]), G)
  {
    AssignUpTo(y, gr.ids, Means(gr, G, x), gr.groups)
  }

  /**
   * One label channel's contribution added to dx: every cell receives, from
   * every member of its group, that member's dy divided by size and G.
   */
  function SliceBackward(gr: Grouping, G: nat, dy: seq<real>, dx: seq<real>): (r: seq<real>)
    requires G >= 1 && WellFormed(gr, |dx|)
    ensures |r| == |dx|
    ensures forall s :: 0 <= s < |dx| ==> r[s] == dx[s] + Mean(dy, Members(gr.ids, gr.ids[s]), G)
  {
    var r := AssignUpTo(dx, gr.ids, BackValues(gr, G, dy), gr.groups);
    forall s | 0 <= s < |dx|
      ensures r[s] == dx[s] + Mean(dy, Members(gr.ids, gr.ids[s]), G)
    {
      BackValueIsMean(dy, Members(gr.ids, gr.ids[s]), G);
    }
    r
  }

  /** Every label channel groups all n pixels. */
  predicate Groupings(grs: seq<Grouping>, n: nat)
  {
    forall gc :: 0 <= gc < |grs| ==> WellFormed(grs[gc], n)
  }

  /** Label channel gc's share of the forward pass: its group means scattered onto zeros. */
  function ForwardPart(grs: seq<Grouping>, x: seq<real>, gc: nat): (y: seq<real>)
    ensures |y| == |x|
  {
    if gc < |grs| && WellFormed(grs[gc], |x|) then SliceForward(grs[gc], |grs|, x, Zeros(|x|)) else Zeros(|x|)
  }

  /** Label channel gc's share of the backward pass. */
  function BackwardPart(grs: seq<Grouping>, dy: seq<real>, gc: nat): (dx: seq<real>)
    ensures |dx| == |dy|
  {
    if gc < |grs| && WellFormed(grs[gc], |dy|) then SliceBackward(grs[gc], |grs|, dy, Zeros(|dy|)) else Zeros(|dy|)
  }

  /**
   * GROUP forward pass on one (n, c) slice: the output starts at zero and
   * every label channel adds its group means to the members. Every cell ends
   * up with the sum over label channels of its group's average divided by G.
   */
  function Forward(grs: seq<Grouping>, x: seq<real>): (y: seq<real>)
    requires Groupings(grs, |x|)
    ensures |y| == |x|
    ensures forall u :: 0 <= u < |y| ==> y[u] == Sum(|grs|, (gc: nat) => ChannelAverage(grs, x, u, gc))
  {
    var parts := (gc: nat) => ForwardPart(grs, x, gc);
    var y := Accumulate(|x|, parts, |grs|);
    assert forall u :: 0 <= u < |y| ==> y[u] == Sum(|grs|, (gc: nat) => ChannelAverage(grs, x, u, gc)) by {
      forall u | 0 <= u < |y|
        ensures y[u] == Sum(|grs|, (gc: nat) => ChannelAverage(grs, x, u, gc))
      {
        AccumulatedAverages(grs, x, parts, u);
      }
    }
    y
  }

  /**
   * GROUP backward pass on one (n, c) slice: the input gradient starts at
   * zero and every label channel adds, for each pair of members of a group,
   * one member's gradient divided by size and G to the other.
   */
  function Backward(grs: seq<Grouping>, dy: seq<real>): (dx: seq<real>)
    requires Groupings(grs, |dy|)
    ensures |dx| == |dy|
    ensures dx == Forward(grs, dy)
  {
    var dx := Accumulate(|dy|, (gc: nat) => BackwardPart(grs, dy, gc), |grs|);
    assert dx == Forward(grs, dy) by {
      forall gc | 0 <= gc < |grs|
        ensures BackwardPart(grs, dy, gc) == ForwardPart(grs, dy, gc)
      {
        BackwardPartIsForwardPart(grs, dy, gc);
      }
      AccumulateExt(|dy|, (gc: nat) => BackwardPart(grs, dy, gc), (gc: nat) => ForwardPart(grs, dy, gc), |grs|);
    }
    dx
  }

  // ---------------------------------------------------------------------
  // Reference values and the self-adjointness of GROUP

  /** Reference value: the average of x over u's group, divided by G. */
  function GroupAverage(ids: seq<nat>, G: nat, x: seq<real>, u: nat): real
    requires G >= 1 && u < |ids|
  {
    var g := ids[u];
    var size := Count(|ids|, (v: nat) => InGroup(ids, g, v));
    if size == 0 then 0.0 else Sum(|ids|, (v: nat) => Masked(ids, g, x, v)) / ((size * G) as real)
  }

  /** The mean over the member list is the average over all pixels sharing the id. */
  lemma MeanIsGroupAverage(ids: seq<nat>, G: nat, x: seq<real>, u: nat)
    requires G >= 1 && u < |ids|
    ensures Mean(x, Members(ids, ids[u]), G) == GroupAverage(ids, G, x, u)
    ensures Count(|ids|, (v: nat) => InGroup(ids, ids[u], v)) >= 1
  {
    var g := ids[u];
    ListSumMembers(ids, g, x, |ids|);
    MembersCount(ids, g, |ids|);
    CountWitness(|ids|, (v: nat) => InGroup(ids, g, v), u);
  }

  /** Label channel gc's contribution to cell u, 0 past the last channel. */
  function ChannelAverage(grs: seq<Grouping>, x: seq<real>, u: nat, gc: nat): real
  {
    if gc < |grs| && u < |grs[gc].ids| then GroupAverage(grs[gc].ids, |grs|, x, u) else 0.0
  }

  /** Channel gc's share at cell u is that channel's group average. */
  lemma PartIsAverage(grs: seq<Grouping>, x: seq<real>, gc: nat, u: nat)
    requires Groupings(grs, |x|) && gc < |grs| && u < |x|
    ensures At(ForwardPart(grs, x, gc), u) == ChannelAverage(grs, x, u, gc)
  {
    MeanIsGroupAverage(grs[gc].ids, |grs|, x, u);
  }

  /** The accumulated channel parts at cell u are the sum of the channel averages there. */
  lemma AccumulatedAverages(grs: seq<Grouping>, x: seq<real>, parts: nat -> seq<real>, u: nat)
    requires Groupings(grs, |x|) && u < |x|
    requires forall gc: nat :: parts(gc) == ForwardPart(grs, x, gc)
    ensures Accumulate(|x|, parts, |grs|)[u] == Sum(|grs|, (gc: nat) => ChannelAverage(grs, x, u, gc))
  {
    AccumulateAt(|x|, parts, |grs|, u);
    forall gc: nat | gc < |grs|
      ensures At(parts(gc), u) == ChannelAverage(grs, x, u, gc)
    {
      PartIsAverage(grs, x, gc, u);
    }
    SumExt(|grs|, (gc: nat) => At(parts(gc), u), (gc: nat) => ChannelAverage(grs, x, u, gc));
  }

  lemma RealCancel(c: real, size: real, G: real)
    requires size > 0.0 && G > 0.0
    ensures c * size / (size * G) == c / G
  {
  }

  /** On a constant input every group average is the constant divided by G. */
  lemma AverageOfConstant(ids: seq<nat>, G: nat, x: seq<real>, c: real, u: nat)
    requires G >= 1 && u < |ids| && |x| == |ids|
    requires forall v :: 0 <= v < |x| ==> x[v] == c
    ensures GroupAverage(ids, G, x, u) == c / (G as real)
  {
    var g := ids[u];
    var p := (v: nat) => InGroup(ids, g, v);
    var f := (v: nat) => Masked(ids, g, x, v);
    SumIndicator(|ids|, p, c, f);
    CountWitness(|ids|, p, u);
    ConstantShare(Sum(|ids|, f), Count(|ids|, p), G, c);
  }

  /** size members of value c, averaged over size * G, give c / G. */
  lemma ConstantShare(total: real, size: nat, G: nat, c: real)
    requires size >= 1 && G >= 1 && total == c * (size as real)
    ensures (if size == 0 then 0.0 else total / ((size * G) as real)) == c / (G as real)
  {
    assert (size * G) as real == (size as real) * (G as real);
    RealCancel(c, size as real, G as real);
  }

  /** GROUP unpooling reproduces a constant input: the G channel shares of c / G add up to c. */
  lemma ChannelAveragesOfConstant(grs: seq<Grouping>, x: seq<real>, c: real, u: nat)
    requires Groupings(grs, |x|) && |grs| >= 1 && u < |x|
    requires forall v :: 0 <= v < |x| ==> x[v] == c
    ensures forall gc: nat :: gc < |grs| ==> ChannelAverage(grs, x, u, gc) == c / (|grs| as real)
  {
    forall gc: nat | gc < |grs|
      ensures ChannelAverage(grs, x, u, gc) == c / (|grs| as real)
    {
      var ids := grs[gc].ids;
      assert u < |ids|;
      AverageOfConstant(ids, |grs|, x, c, u);
    }
  }

  lemma ForwardConstant(grs: seq<Grouping>, x: seq<real>, c: real, u: nat)
    requires Groupings(grs, |x|) && |grs| >= 1 && u < |x|
    requires forall v :: 0 <= v < |x| ==> x[v] == c
    ensures Forward(grs, x)[u] == c
  {
    var G := |grs|;
    var f := (gc: nat) => ChannelAverage(grs, x, u, gc);
    assert Forward(grs, x)[u] == Sum(G, f);
    ChannelAveragesOfConstant(grs, x, c, u);
    SumOfShares(G, c, f);
  }

  /** The backward share of a channel is its forward share applied to the gradient. */
  lemma BackwardPartIsForwardPart(grs: seq<Grouping>, dy: seq<real>, gc: nat)
    ensures BackwardPart(grs, dy, gc) == ForwardPart(grs, dy, gc)
  {
    if gc < |grs| && WellFormed(grs[gc], |dy|) {
      var b, f := BackwardPart(grs, dy, gc), ForwardPart(grs, dy, gc);
      assert forall s :: 0 <= s < |dy| ==> b[s] == f[s];
    }
  }

  /** Weight of pixel v in pixel u's output: 1 / (size * G) within one group, 0 across groups. */
  function Weight(ids: seq<nat>, G: nat, v: nat, u: nat): real
  {
    var size := |Members(ids, if u < |ids| then ids[u] else 0)|;
    if v < |ids| && u < |ids| && ids[v] == ids[u] && size * G > 0 then 1.0 / ((size * G) as real) else 0.0
  }

  lemma WeightSymmetric(ids: seq<nat>, G: nat, wt: (nat, nat) -> real)
    requires forall v: nat, u: nat :: wt(v, u) == Weight(ids, G, v, u)
    ensures forall v: nat, u: nat :: wt(v, u) == wt(u, v)
  {
  }

  /** One label channel's mean is the linear map with the group weights. */
  lemma MeanIsApply(ids: seq<nat>, G: nat, wt: (nat, nat) -> real, x: seq<real>, u: nat)
    requires G >= 1 && u < |ids| && |x| == |ids|
    requires forall v: nat, t: nat :: wt(v, t) == Weight(ids, G, v, t)
    ensures Mean(x, Members(ids, ids[u]), G) == Apply(|ids|, |ids|, wt, x)[u]
  {
    var n, g := |ids|, ids[u];
    var m := Members(ids, g);
    MembersSpec(ids, g);
    assert u in m;
    var size := |m|;
    PositiveProduct(size, G);
    var c := (size * G) as real;
    var f := (v: nat) => Masked(ids, g, x, v);
    var h := (v: nat) => f(v) / c;
    var k := (v: nat) => wt(v, u) * At(x, v);
    ListSumMembers(ids, g, x, n);
    SumDivide(n, c, f, h);
    forall v: nat | v < n
      ensures h(v) == k(v)
    {
      MeanTerm(ids, G, wt, x, u, v);
    }
    SumExt(n, h, k);
  }

  /** One term of a group mean: a member's value over size * G, 0 for a non-member. */
  lemma MeanTerm(ids: seq<nat>, G: nat, wt: (nat, nat) -> real, x: seq<real>, u: nat, v: nat)
    requires G >= 1 && u < |ids| && v < |ids| && |Members(ids, ids[u])| >= 1
    requires forall v: nat, t: nat :: wt(v, t) == Weight(ids, G, v, t)
    ensures Masked(ids, ids[u], x, v) / ((|Members(ids, ids[u])| * G) as real) == wt(v, u) * At(x, v)
  {
    var g := ids[u];
    PositiveProduct(|Members(ids, g)|, G);
    var c := (|Members(ids, g)| * G) as real;
    if InGroup(ids, g, v) {
      assert wt(v, u) == 1.0 / c;
      RealDivAsMul(At(x, v), c);
    } else {
      assert wt(v, u) == 0.0;
    }
  }

  lemma PositiveProduct(a: nat, b: nat)
    requires a >= 1 && b >= 1
    ensures a * b >= 1
  {
  }


  /** A map with the group weights of one label channel is its own adjoint. */
  lemma SliceAdjoint(ids: seq<nat>, G: nat, wt: (nat, nat) -> real, x: seq<real>, dy: seq<real>)
    requires |x| == |ids| && |dy| == |ids|
    requires forall v: nat, u: nat :: wt(v, u) == Weight(ids, G, v, u)
    ensures Dot(Apply(|ids|, |ids|, wt, x), dy) == Dot(x, Apply(|ids|, |ids|, wt, dy))
  {
    Adjoint(|ids|, |ids|, wt, x, dy);
    WeightSymmetric(ids, G, wt);
    SymmetricSelfTranspose(|ids|, wt, dy);
  }

  /** Channel gc's share is the linear map with its group weights. */
  lemma PartIsApply(grs: seq<Grouping>, x: seq<real>, gc: nat, wt: (nat, nat) -> real)
    requires Groupings(grs, |x|) && gc < |grs|
    requires forall v: nat, u: nat :: wt(v, u) == Weight(grs[gc].ids, |grs|, v, u)
    ensures ForwardPart(grs, x, gc) == Apply(|x|, |x|, wt, x)
  {
    var a, b := ForwardPart(grs, x, gc), Apply(|x|, |x|, wt, x);
    forall u | 0 <= u < |x|
      ensures a[u] == b[u]
    {
      MeanIsApply(grs[gc].ids, |grs|, wt, x, u);
    }
  }

  /** Each channel's share is its own adjoint. */
  lemma PartAdjoint(grs: seq<Grouping>, x: seq<real>, dy: seq<real>, gc: nat)
    requires Groupings(grs, |x|) && |dy| == |x| && gc < |grs|
    ensures Dot(ForwardPart(grs, x, gc), dy) == Dot(x, ForwardPart(grs, dy, gc))
  {
    var ids, G := grs[gc].ids, |grs|;
    var wt := (v: nat, u: nat) => Weight(ids, G, v, u);
    PartIsApply(grs, x, gc, wt);
    PartIsApply(grs, dy, gc, wt);
    SliceAdjoint(ids, G, wt, x, dy);
  }

  /** GROUP backward is the exact adjoint of GROUP forward. */
  lemma GroupAdjoint(grs: seq<Grouping>, x: seq<real>, dy: seq<real>)
    requires Groupings(grs, |x|) && |dy| == |x|
    ensures Dot(Forward(grs, x), dy) == Dot(x, Backward(grs, dy))
  {
    var p := (gc: nat) => ForwardPart(grs, x, gc);
    var q := (gc: nat) => ForwardPart(grs, dy, gc);
    forall gc | 0 <= gc < |grs|
      ensures Dot(p(gc), dy) == Dot(x, q(gc))
    {
      PartAdjoint(grs, x, dy, gc);
    }
    AccumulateAdjoint(|x|, p, q, x, dy, |grs|);
  }
}

=== FILE: linear_maps.dfy ===
/**
 * Linear maps between flat grids given by a weight function wt(s, u): the
 * weight with which source cell s contributes to destination cell u. Every
 * unpooling method's forward pass is such a map and its backward pass is the
 * transposed map; the adjointness theorem is proved here once.
 */
module LinearMaps {
  import opened Sums

  /** r[u] = sum over s of wt(s, u) * x[s]: the forward direction. */
  function Apply(S: nat, U: nat, wt: (nat, nat) -> real, x: seq<real>): (r: seq<real>)
    ensures |r| == U
  {
    seq(U, (u: nat) => Sum(S, (s: nat) => wt(s, u) * At(x, s)))
  }

  /** r[s] = sum over u of wt(s, u) * y[u]: the transposed direction. */
  function ApplyT(S: nat, U: nat, wt: (nat, nat) -> real, y: seq<real>): (r: seq<real>)
    ensures |r| == S
  {
    seq(S, (s: nat) => Sum(U, (u: nat) => wt(s, u) * At(y, u)))
  }

  /** The weighted term of the double sum behind both sides of the adjoint identity. */
  function Term(wt: (nat, nat) -> real, x: seq<real>, y: seq<real>, s: nat, u: nat): real
  {
    wt(s, u) * At(x, s) * At(y, u)
  }

  lemma {:induction false} ApplyRow(S: nat, U: nat, wt: (nat, nat) -> real, x: seq<real>, y: seq<real>, u: nat)
    requires u < U
    ensures At(Apply(S, U, wt, x), u) * At(y, u) == Sum(S, (s: nat) => Term(wt, x, y, s, u))
  {
    var c := At(y, u);
    forall s: nat | s < S
      ensures Term(wt, x, y, s, u) == c * (wt(s, u) * At(x, s))
    {
      var a, b := wt(s, u), At(x, s);
      assert a * b * c == c * (a * b);
    }
    SumScale(S, c, (s: nat) => wt(s, u) * At(x, s), (s: nat) => Term(wt, x, y, s, u));
  }

  lemma {:induction false} ApplyTColumn(S: nat, U: nat, wt: (nat, nat) -> real, x: seq<real>, y: seq<real>, s: nat)
    requires s < S
    ensures At(x, s) * At(ApplyT(S, U, wt, y), s) == Sum(U, (u: nat) => Term(wt, x, y, s, u))
  {
    var c := At(x, s);
    forall u: nat | u < U
      ensures Term(wt, x, y, s, u) == c * (wt(s, u) * At(y, u))
    {
      var a, b := wt(s, u), At(y, u);
      assert a * c * b == c * (a * b);
    }
    SumScale(U, c, (u: nat) => wt(s, u) * At(y, u), (u: nat) => Term(wt, x, y, s, u));
  }

  /** Row sums of the double sum of Term, indexed by destination cell. */
  function RowSum(S: nat, wt: (nat, nat) -> real, x: seq<real>, y: seq<real>, u: nat): real
  {
    Sum(S, (s: nat) => Term(wt, x, y, s, u))
  }

  /** Column sums of the double sum of Term, indexed by source cell. */
  function ColumnSum(U: nat, wt: (nat, nat) -> real, x: seq<real>, y: seq<real>, s: nat): real
  {
    Sum(U, (u: nat) => Term(wt, x, y, s, u))
  }

  lemma DotApplyRows(S: nat, U: nat, wt: (nat, nat) -> real, x: seq<real>, y: seq<real>)
    ensures Dot(Apply(S, U, wt, x), y) == Sum(U, (u: nat) => RowSum(S, wt, x, y, u))
  {
    var ax := Apply(S, U, wt, x);
    forall u: nat | u < U
      ensures At(ax, u) * At(y, u) == RowSum(S, wt, x, y, u)
    {
      ApplyRow(S, U, wt, x, y, u);
    }
    SumExt(U, (u: nat) => At(ax, u) * At(y, u), (u: nat) => RowSum(S, wt, x, y, u));
  }

  lemma DotApplyTColumns(S: nat, U: nat, wt: (nat, nat) -> real, x: seq<real>, y: seq<real>)
    requires |x| == S
    ensures Dot(x, ApplyT(S, U, wt, y)) == Sum(S, (s: nat) => ColumnSum(U, wt, x, y, s))
  {
    var aty := ApplyT(S, U, wt, y);
    forall s: nat | s < S
      ensures At(x, s) * At(aty, s) == ColumnSum(U, wt, x, y, s)
    {
      ApplyTColumn(S, U, wt, x, y, s);
    }
    SumExt(S, (s: nat) => At(x, s) * At(aty, s), (s: nat) => ColumnSum(U, wt, x, y, s));
  }

  lemma RowsEqualColumns(S: nat, U: nat, wt: (nat, nat) -> real, x: seq<real>, y: seq<real>)
    ensures Sum(U, (u: nat) => RowSum(S, wt, x, y, u)) == Sum(S, (s: nat) => ColumnSum(U, wt, x, y, s))
  {
    var g := (u: nat, s: nat) => Term(wt, x, y, s, u);
    forall u: nat | u < U
      ensures RowSum(S, wt, x, y, u) == Sum(S, (s: nat) => g(u, s))
    {
      SumExt(S, (s: nat) => Term(wt, x, y, s, u), (s: nat) => g(u, s));
    }
    forall s: nat | s < S
      ensures ColumnSum(U, wt, x, y, s) == Sum(U, (u: nat) => g(u, s))
    {
      SumExt(U, (u: nat) => Term(wt, x, y, s, u), (u: nat) => g(u, s));
    }
    SumSwapExt(U, S, g, (u: nat) => RowSum(S, wt, x, y, u), (s: nat) => ColumnSum(U, wt, x, y, s));
  }

  /** The transposed map is the adjoint: <Apply(x), y> == <x, ApplyT(y)>. */
  lemma Adjoint(S: nat, U: nat, wt: (nat, nat) -> real, x: seq<real>, y: seq<real>)
    requires |x| == S && |y| == U
    ensures Dot(Apply(S, U, wt, x), y) == Dot(x, ApplyT(S, U, wt, y))
  {
    DotApplyRows(S, U, wt, x, y);
    RowsEqualColumns(S, U, wt, x, y);
    DotApplyTColumns(S, U, wt, x, y);
  }

  /** A map with a symmetric weight function is its own transpose. */
  lemma SymmetricSelfTranspose(n: nat, wt: (nat, nat) -> real, y: seq<real>)
    requires forall s: nat, u: nat :: wt(s, u) == wt(u, s)
    ensures ApplyT(n, n, wt, y) == Apply(n, n, wt, y)
  {
    forall s | 0 <= s < n
      ensures ApplyT(n, n, wt, y)[s] == Apply(n, n, wt, y)[s]
    {
      SumExt(n, (u: nat) => wt(s, u) * At(y, u), (u: nat) => wt(u, s) * At(y, u));
    }
  }
}

=== FILE: overlap_unpool.dfy ===
/**
 * DIV and REP unpooling: every source cell spreads its value over its whole
 * clipped window. The shared mask counts, per destination cell, how many
 * windows cover it; each contribution is divided by that count, so a covered
 * destination cell holds the mean of the values spread onto it. DIV first
 * divides each source value by its window area.
 */
module OverlapUnpool {
  import opened Sums
  import opened LinearMaps
  import opened UnpoolConfig
  import opened UnpoolGrid
  import opened RowMajor
  import opened Spreading

  /** The window relation of a plan as a cover relation. */
  function Window(p: Plan): (nat, nat) -> bool
  {
    (s: nat, u: nat) => Covers(p, s, u)
  }

  /** The cover-count mask after the windows of the first k source cells were added. */
  function CoverMaskUpTo(p: Plan, k: nat): (m: seq<int>)
    requires ValidPlan(p) && k <= SrcCount(p)
    ensures |m| == DstCount(p)
    ensures forall u :: 0 <= u < |m| ==> m[u] == Count(k, (s: nat) => Covers(p, s, u))
  {
    if k == 0 then
      seq(DstCount(p), _ => 0)
    else
      var prev := CoverMaskUpTo(p, k - 1);
      seq(DstCount(p), (u: nat) requires u < |prev| => prev[u] + if Covers(p, k - 1, u) then 1 else 0)
  }

  /**
   * The DIV/REP mask: each entry counts the source windows covering the cell,
   * so it is positive wherever some window reaches and the positivity checks
   * of the forward and backward passes never fail.
   */
  function CoverMask(p: Plan): (m: seq<int>)
    requires ValidPlan(p)
    ensures Counts(SrcCount(p), DstCount(p), Window(p), m)
    ensures Cover(SrcCount(p), DstCount(p), Window(p), m)
  {
    var m := CoverMaskUpTo(p, SrcCount(p));
    forall u | 0 <= u < DstCount(p)
      ensures m[u] == Count(SrcCount(p), (s: nat) => Window(p)(s, u))
    {
      forall s | 0 <= s < SrcCount(p)
        ensures Covers(p, s, u) == Window(p)(s, u)
      {
      }
      CountExt(SrcCount(p), (s: nat) => Covers(p, s, u), (s: nat) => Window(p)(s, u));
    }
    forall s: nat, u: nat | Window(p)(s, u)
      ensures s < SrcCount(p) && u < DstCount(p) && m[u] >= 1
    {
      CountWitness(SrcCount(p), (t: nat) => Window(p)(t, u), s);
    }
    m
  }

  /** Window extent along one axis before clipping at 0, with the end capped at out + pad. */
  function PaddedSpan(a: Axis, out: nat, i: nat): int
  {
    var start := WindowStart(a, i);
    var end := if start + a.kernel < out + a.pad then start + a.kernel else out + a.pad;
    end - start
  }

  /** The cap at out + pad never bites, so the span is the kernel. */
  lemma PaddedSpanIsKernel(a: Axis, src: nat, out: nat, i: nat)
    requires i < src && out == OutSize(src, a)
    ensures PaddedSpan(a, out, i) == a.kernel
  {
    MulMonotone(i, src - 1, a.stride);
  }

  /** DIV's divisor for source cell s, computed per cell as the source does. */
  function DivArea(p: Plan, s: nat): int
    requires p.width > 0
  {
    PaddedSpan(p.geo.h, OutHeight(p), s / p.width) * PaddedSpan(p.geo.w, OutWidth(p), s % p.width)
  }

  /** The common kernel area kh * kw. */
  function KernelArea(p: Plan): int
  {
    p.geo.h.kernel * p.geo.w.kernel
  }

  /** Every source cell's DIV divisor is the kernel area, which is positive. */
  lemma DivAreaIsKernelArea(p: Plan, s: nat)
    requires ValidPlan(p) && s < SrcCount(p)
    ensures DivArea(p, s) == KernelArea(p) >= 1
  {
    FlatBounds(s, p.height, p.width);
    PaddedSpanIsKernel(p.geo.h, p.height, OutHeight(p), s / p.width);
    PaddedSpanIsKernel(p.geo.w, p.width, OutWidth(p), s % p.width);
    MulMonotone(1, p.geo.h.kernel, p.geo.w.kernel);
  }

  /** Source value s divided by its DIV divisor, which is the kernel area. */
  function DivShare(p: Plan, x: seq<real>, s: nat): (r: real)
    requires ValidPlan(p) && |x| == SrcCount(p) && s < SrcCount(p)
    ensures KernelArea(p) >= 1 && r == x[s] / (KernelArea(p) as real)
  {
    DivAreaIsKernelArea(p, s);
    x[s] / (DivArea(p, s) as real)
  }

  /** Source values divided by their DIV divisors. */
  function DivShares(p: Plan, x: seq<real>): (v: seq<real>)
    requires ValidPlan(p) && |x| == SrcCount(p)
    ensures |v| == |x|
    ensures KernelArea(p) >= 1
    ensures forall s :: 0 <= s < |v| ==> v[s] == x[s] / (KernelArea(p) as real)
  {
    MulMonotone(1, p.geo.h.kernel, p.geo.w.kernel);
    seq(SrcCount(p), (s: nat) requires s < SrcCount(p) => DivShare(p, x, s))
  }

  /** REP's weight of source s at destination u: one over the count if u is in the window of s. */
  function RepWeight(p: Plan, mask: seq<int>, s: nat, u: nat): real
  {
    Share(Window(p), mask, s, u)
  }

  /** DIV's weight: REP's divided by the kernel area. */
  function DivWeight(p: Plan, mask: seq<int>, s: nat, u: nat): real
    requires KernelArea(p) >= 1
  {
    Share(Window(p), mask, s, u) / (KernelArea(p) as real)
  }

  /**
   * REP forward pass on one (n, c) slice: top[u] += x[s] / mask[u] over each
   * window. A covered cell ends up with the mean of the source values whose
   * windows cover it, an uncovered cell with 0.
   */
  function RepForward(p: Plan, mask: seq<int>, x: seq<real>): (y: seq<real>)
    requires ValidPlan(p) && mask == CoverMask(p) && |x| == SrcCount(p)
    ensures |y| == DstCount(p)
    ensures forall u :: 0 <= u < |y| ==>
      y[u] == if mask[u] > 0 then CoveredTotal(SrcCount(p), Window(p), x, u) / (mask[u] as real) else 0.0
  {
    var y := Spread(SrcCount(p), DstCount(p), Window(p), mask, x);
    assert forall u :: 0 <= u < |y| ==>
      y[u] == if mask[u] > 0 then CoveredTotal(SrcCount(p), Window(p), x, u) / (mask[u] as real) else 0.0
    by {
      forall u | 0 <= u < |y|
        ensures y[u] == if mask[u] > 0 then CoveredTotal(SrcCount(p), Window(p), x, u) / (mask[u] as real) else 0.0
      {
        ReceivedMean(SrcCount(p), DstCount(p), Window(p), mask, x, u);
      }
    }
    y
  }

  /**
   * DIV forward pass on one (n, c) slice: top[u] += (x[s] / area) / mask[u]
   * over each window. Every cell holds REP's value divided by the kernel area.
   */
  function DivForward(p: Plan, mask: seq<int>, x: seq<real>): (y: seq<real>)
    requires ValidPlan(p) && mask == CoverMask(p) && |x| == SrcCount(p)
    ensures |y| == DstCount(p)
    ensures KernelArea(p) >= 1
    ensures forall u :: 0 <= u < |y| ==> y[u] == RepForward(p, mask, x)[u] / (KernelArea(p) as real)
  {
    var v := DivShares(p, x);
    var y := Spread(SrcCount(p), DstCount(p), Window(p), mask, v);
    assert forall u :: 0 <= u < |y| ==> y[u] == RepForward(p, mask, x)[u] / (KernelArea(p) as real) by {
      forall u | 0 <= u < |y|
        ensures y[u] == RepForward(p, mask, x)[u] / (KernelArea(p) as real)
      {
        ReceivedScaled(SrcCount(p), DstCount(p), Window(p), mask, x, v, KernelArea(p) as real, u);
      }
    }
    y
  }

  /**
   * REP backward pass on one (n, c) slice: bottom_diff[s] = sum over its
   * window of dy[u] / mask[u], the transpose of REP forward.
   */
  function RepBackward(p: Plan, mask: seq<int>, dy: seq<real>): (dx: seq<real>)
    requires ValidPlan(p) && mask == CoverMask(p) && |dy| == DstCount(p)
    ensures |dx| == SrcCount(p)
    ensures dx == ApplyT(SrcCount(p), DstCount(p), (s: nat, u: nat) => RepWeight(p, mask, s, u), dy)
  {
    var wt := (s: nat, u: nat) => RepWeight(p, mask, s, u);
    var dx := GatherAll(SrcCount(p), DstCount(p), Window(p), mask, dy);
    assert dx == ApplyT(SrcCount(p), DstCount(p), wt, dy) by {
      forall s | 0 <= s < SrcCount(p)
        ensures dx[s] == ApplyT(SrcCount(p), DstCount(p), wt, dy)[s]
      {
        GatherAt(SrcCount(p), DstCount(p), Window(p), mask, wt, dy, s);
      }
    }
    dx
  }

  /**
   * DIV backward pass on one (n, c) slice: bottom_diff[s] = sum over its
   * window of dy[u] / area / mask[u], the transpose of DIV forward.
   */
  function DivBackward(p: Plan, mask: seq<int>, dy: seq<real>): (dx: seq<real>)
    requires ValidPlan(p) && mask == CoverMask(p) && |dy| == DstCount(p)
    ensures |dx| == SrcCount(p)
    ensures KernelArea(p) >= 1
    ensures dx == ApplyT(SrcCount(p), DstCount(p), (s: nat, u: nat) => DivWeight(p, mask, s, u), dy)
  {
    MulMonotone(1, p.geo.h.kernel, p.geo.w.kernel);
    var wt := (s: nat, u: nat) => DivWeight(p, mask, s, u);
    var dx := seq(SrcCount(p), (s: nat) requires s < SrcCount(p) =>
      DivAreaIsKernelArea(p, s);
      ScaledGather(SrcCount(p), DstCount(p), Window(p), mask, dy, s, DivArea(p, s) as real));
    assert dx == ApplyT(SrcCount(p), DstCount(p), wt, dy) by {
      forall s | 0 <= s < SrcCount(p)
        ensures dx[s] == ApplyT(SrcCount(p), DstCount(p), wt, dy)[s]
      {
        DivAreaIsKernelArea(p, s);
        ScaledGatherAt(SrcCount(p), DstCount(p), Window(p), mask, wt, dy, s, KernelArea(p) as real);
      }
    }
    dx
  }

  /** REP forward is the linear map with weights RepWeight. */
  lemma RepForwardIsLinear(p: Plan, mask: seq<int>, x: seq<real>)
    requires ValidPlan(p) && mask == CoverMask(p) && |x| == SrcCount(p)
    ensures RepForward(p, mask, x) == Apply(SrcCount(p), DstCount(p), (s: nat, u: nat) => RepWeight(p, mask, s, u), x)
  {
    var wt := (s: nat, u: nat) => RepWeight(p, mask, s, u);
    forall u | 0 <= u < DstCount(p)
      ensures RepForward(p, mask, x)[u] == Apply(SrcCount(p), DstCount(p), wt, x)[u]
    {
      SpreadAt(SrcCount(p), DstCount(p), Window(p), mask, wt, x, u);
    }
  }

  /** DIV forward is the linear map with weights DivWeight. */
  lemma DivForwardIsLinear(p: Plan, mask: seq<int>, x: seq<real>)
    requires ValidPlan(p) && mask == CoverMask(p) && |x| == SrcCount(p)
    ensures KernelArea(p) >= 1
    ensures DivForward(p, mask, x) == Apply(SrcCount(p), DstCount(p), (s: nat, u: nat) => DivWeight(p, mask, s, u), x)
  {
    var v := DivShares(p, x);
    var wt := (s: nat, u: nat) => DivWeight(p, mask, s, u);
    forall u | 0 <= u < DstCount(p)
      ensures DivForward(p, mask, x)[u] == Apply(SrcCount(p), DstCount(p), wt, x)[u]
    {
      ScaledSpreadAt(SrcCount(p), DstCount(p), Window(p), mask, wt, x, v, KernelArea(p) as real, u);
    }
  }

  /** REP backward is the exact adjoint of REP forward. */
  lemma RepAdjoint(p: Plan, mask: seq<int>, x: seq<real>, dy: seq<real>)
    requires ValidPlan(p) && mask == CoverMask(p) && |x| == SrcCount(p) && |dy| == DstCount(p)
    ensures Dot(RepForward(p, mask, x), dy) == Dot(x, RepBackward(p, mask, dy))
  {
    RepForwardIsLinear(p, mask, x);
    Adjoint(SrcCount(p), DstCount(p), (s: nat, u: nat) => RepWeight(p, mask, s, u), x, dy);
  }

  /** DIV backward is the exact adjoint of DIV forward. */
  lemma DivAdjoint(p: Plan, mask: seq<int>, x: seq<real>, dy: seq<real>)
    requires ValidPlan(p) && mask == CoverMask(p) && |x| == SrcCount(p) && |dy| == DstCount(p)
    ensures Dot(DivForward(p, mask, x), dy) == Dot(x, DivBackward(p, mask, dy))
  {
    DivForwardIsLinear(p, mask, x);
    Adjoint(SrcCount(p), DstCount(p), (s: nat, u: nat) => DivWeight(p, mask, s, u), x, dy);
  }

  /** REP reproduces a constant input on every covered cell and writes 0 on the others. */
  lemma RepConstant(p: Plan, mask: seq<int>, x: seq<real>, c: real, u: nat)
    requires ValidPlan(p) && mask == CoverMask(p) && |x| == SrcCount(p) && u < DstCount(p)
    requires forall s :: 0 <= s < |x| ==> x[s] == c
    ensures RepForward(p, mask, x)[u] == if mask[u] > 0 then c else 0.0
  {
    ReceivedConstant(SrcCount(p), DstCount(p), Window(p), mask, x, c, u);
  }
}

=== FILE: overwriting.dfy ===
/**
 * Copying each of S source values to one destination cell among U, in source
 * order, so that a later source overwrites an earlier one with the same
 * target. The record of the last writer per destination cell (or -1) routes
 * gradients back. FIXED unpooling is the instance whose target is the window
 * midpoint.
 */
module Overwriting {
  import opened Sums
  import opened LinearMaps

  /** Mask entry of a destination cell no source is copied to. */
  const NoSource: int := -1

  /** Every source's target is a destination cell. */
  predicate Targets(S: nat, U: nat, tgt: nat -> nat)
  {
    forall s :: 0 <= s < S ==> tgt(s) < U
  }

  /**
   * The record after the first k sources have written their index at their
   * target. Each entry is the last writer: it targets its cell, no later
   * writer among the first k does, and every writer's cell holds it or a
   * later writer.
   */
  function WritersUpTo(S: nat, U: nat, tgt: nat -> nat, k: nat): (m: seq<int>)
    requires Targets(S, U, tgt) && k <= S
    ensures |m| == U
    ensures forall u :: 0 <= u < U ==> NoSource <= m[u] < k
    ensures forall u :: 0 <= u < U && m[u] != NoSource ==> tgt(m[u]) == u
    ensures forall u, t :: 0 <= u < U && m[u] < t < k ==> tgt(t) != u
    ensures forall s :: 0 <= s < k ==> m[tgt(s)] >= s
  {
    if k == 0 then
      seq(U, _ => NoSource)
    else
      WritersUpTo(S, U, tgt, k - 1)[tgt(k - 1) := k - 1]
  }

  /**
   * The last-writer record: each entry is -1 or a source index, no source
   * index appears twice, an entry is -1 exactly when no source targets the
   * cell, and otherwise it is the last source in order that targets it.
   */
  function LastWriters(S: nat, U: nat, tgt: nat -> nat): (m: seq<int>)
    requires Targets(S, U, tgt)
    ensures |m| == U
    ensures forall u :: 0 <= u < U ==> m[u] == NoSource || 0 <= m[u] < S
    ensures forall u, v :: 0 <= u < U && 0 <= v < U && m[u] == m[v] != NoSource ==> u == v
    ensures forall u :: 0 <= u < U ==> (m[u] == NoSource <==> forall s :: 0 <= s < S ==> tgt(s) != u)
    ensures forall u :: 0 <= u < U && m[u] != NoSource ==>
      tgt(m[u]) == u && forall t :: m[u] < t < S ==> tgt(t) != u
  {
    WritersUpTo(S, U, tgt, S)
  }

  /** Copy of the first k sources: out[tgt(s)] = x[s], later sources overwriting earlier ones. */
  function CopyUpTo(S: nat, U: nat, tgt: nat -> nat, x: seq<real>, k: nat): (y: seq<real>)
    requires Targets(S, U, tgt) && |x| == S && k <= S
    ensures |y| == U
    ensures var m := WritersUpTo(S, U, tgt, k);
      forall u :: 0 <= u < U ==> y[u] == (if m[u] == NoSource then 0.0 else x[m[u]])
  {
    if k == 0 then
      Zeros(U)
    else
      var prev := CopyUpTo(S, U, tgt, x, k - 1);
      var before := WritersUpTo(S, U, tgt, k - 1);
      var t := tgt(k - 1);
      assert WritersUpTo(S, U, tgt, k) == before[t := k - 1];
      prev[t := x[k - 1]]
  }

  /**
   * Copy of all sources. Although it never reads the record, each cell ends
   * up with the value of the source the record names, and 0 where it holds -1.
   */
  function Copy(S: nat, U: nat, tgt: nat -> nat, x: seq<real>): (y: seq<real>)
    requires Targets(S, U, tgt) && |x| == S
    ensures |y| == U
    ensures var m := LastWriters(S, U, tgt);
      forall u :: 0 <= u < U ==> y[u] == (if m[u] == NoSource then 0.0 else x[m[u]])
  {
    CopyUpTo(S, U, tgt, x, S)
  }

  /** Routing back over the first k destination cells: out[mask[u]] = dy[u] where mask[u] != -1. */
  function RouteUpTo(S: nat, U: nat, tgt: nat -> nat, mask: seq<int>, dy: seq<real>, k: nat): (dx: seq<real>)
    requires Targets(S, U, tgt) && mask == LastWriters(S, U, tgt) && |dy| == U && k <= U
    ensures |dx| == S
    ensures forall s :: 0 <= s < S ==>
      dx[s] == (if tgt(s) < k && mask[tgt(s)] == s then dy[tgt(s)] else 0.0)
  {
    if k == 0 then
      Zeros(S)
    else
      var prev := RouteUpTo(S, U, tgt, mask, dy, k - 1);
      var u := k - 1;
      if mask[u] != NoSource then prev[mask[u] := dy[u]] else prev
  }

  /**
   * Routing back over all destination cells. A source receives the gradient
   * at its target when it is the recorded writer there, and 0 when a later
   * source overwrote it.
   */
  function Route(S: nat, U: nat, tgt: nat -> nat, mask: seq<int>, dy: seq<real>): (dx: seq<real>)
    requires Targets(S, U, tgt) && mask == LastWriters(S, U, tgt) && |dy| == U
    ensures |dx| == S
    ensures forall s :: 0 <= s < S ==> dx[s] == (if mask[tgt(s)] == s then dy[tgt(s)] else 0.0)
    ensures forall s, t :: 0 <= s < t < S && tgt(t) == tgt(s) ==> dx[s] == 0.0
  {
    RouteUpTo(S, U, tgt, mask, dy, U)
  }

  /** Weight of source s at destination u: 1 exactly where the record names s. */
  function Weight(mask: seq<int>, s: nat, u: nat): real
  {
    if u < |mask| && mask[u] == s then 1.0 else 0.0
  }

  lemma CopyAt(S: nat, U: nat, tgt: nat -> nat, wt: (nat, nat) -> real, x: seq<real>, u: nat)
    requires Targets(S, U, tgt) && |x| == S && u < U
    requires forall s: nat, v: nat :: wt(s, v) == Weight(LastWriters(S, U, tgt), s, v)
    ensures Copy(S, U, tgt, x)[u] == Apply(S, U, wt, x)[u]
  {
    var mask := LastWriters(S, U, tgt);
    var f := (s: nat) => wt(s, u) * At(x, s);
    assert Apply(S, U, wt, x)[u] == Sum(S, f);
    if mask[u] == NoSource {
      SumZero(S, f);
    } else {
      SumSingle(S, f, mask[u]);
    }
  }

  /** A cell's recorded writer targets that cell. */
  lemma WriterTargetsCell(S: nat, U: nat, tgt: nat -> nat, s: nat, u: nat)
    requires Targets(S, U, tgt) && u < U
    ensures LastWriters(S, U, tgt)[u] == s ==> tgt(s) == u
  {
  }

  /** Source s's row of the transposed map picks the gradient at its target if it is the recorded writer. */
  lemma RouteRow(S: nat, U: nat, tgt: nat -> nat, wt: (nat, nat) -> real, dy: seq<real>, s: nat)
    requires Targets(S, U, tgt) && |dy| == U && s < S
    requires forall t: nat, v: nat :: wt(t, v) == Weight(LastWriters(S, U, tgt), t, v)
    ensures Sum(U, (u: nat) => wt(s, u) * At(dy, u))
         == if LastWriters(S, U, tgt)[tgt(s)] == s then dy[tgt(s)] else 0.0
  {
    var f := (u: nat) => wt(s, u) * At(dy, u);
    var t := tgt(s);
    forall u | 0 <= u < U && u != t
      ensures f(u) == 0.0
    {
      WriterTargetsCell(S, U, tgt, s, u);
    }
    if LastWriters(S, U, tgt)[t] == s {
      SumSingle(U, f, t);
    } else {
      SumZero(U, f);
    }
  }

  lemma RouteAt(S: nat, U: nat, tgt: nat -> nat, wt: (nat, nat) -> real, dy: seq<real>, s: nat)
    requires Targets(S, U, tgt) && |dy| == U && s < S
    requires forall t: nat, v: nat :: wt(t, v) == Weight(LastWriters(S, U, tgt), t, v)
    ensures Route(S, U, tgt, LastWriters(S, U, tgt), dy)[s] == ApplyT(S, U, wt, dy)[s]
  {
    RouteRow(S, U, tgt, wt, dy, s);
  }

  /** Copying is the linear map with the record's 0/1 weights. */
  lemma CopyIsLinear(S: nat, U: nat, tgt: nat -> nat, x: seq<real>)
    requires Targets(S, U, tgt) && |x| == S
    ensures Copy(S, U, tgt, x) == Apply(S, U, (s: nat, u: nat) => Weight(LastWriters(S, U, tgt), s, u), x)
  {
    var wt := (s: nat, u: nat) => Weight(LastWriters(S, U, tgt), s, u);
    forall u | 0 <= u < U
      ensures Copy(S, U, tgt, x)[u] == Apply(S, U, wt, x)[u]
    {
      CopyAt(S, U, tgt, wt, x, u);
    }
  }

  /** Routing back is the transpose of the same map. */
  lemma RouteIsTransposed(S: nat, U: nat, tgt: nat -> nat, dy: seq<real>)
    requires Targets(S, U, tgt) && |dy| == U
    ensures Route(S, U, tgt, LastWriters(S, U, tgt), dy)
         == ApplyT(S, U, (s: nat, u: nat) => Weight(LastWriters(S, U, tgt), s, u), dy)
  {
    var wt := (s: nat, u: nat) => Weight(LastWriters(S, U, tgt), s, u);
    forall s | 0 <= s < S
      ensures Route(S, U, tgt, LastWriters(S, U, tgt), dy)[s] == ApplyT(S, U, wt, dy)[s]
    {
      RouteAt(S, U, tgt, wt, dy, s);
    }
  }

  /**
   * Routing back is the exact adjoint of copying. The plain assignment in the
   * routing suffices because no source index appears twice in the record.
   */
  lemma CopyAdjoint(S: nat, U: nat, tgt: nat -> nat, x: seq<real>, dy: seq<real>)
    requires Targets(S, U, tgt) && |x| == S && |dy| == U
    ensures Dot(Copy(S, U, tgt, x), dy) == Dot(x, Route(S, U, tgt, LastWriters(S, U, tgt), dy))
  {
    CopyIsLinear(S, U, tgt, x);
    RouteIsTransposed(S, U, tgt, dy);
    Adjoint(S, U, (s: nat, u: nat) => Weight(LastWriters(S, U, tgt), s, u), x, dy);
  }
}

=== FILE: parse_evaluate.dfy ===
/**
 * The parse-evaluate layer: per-label pixel counts that score a semantic segmentation
 * against its ground truth. For every label l the output holds, summed over the batch and
 * over the pixels whose ground truth is not an ignore label, how many pixels have both
 * ground truth and prediction l, how many have ground truth l, and how many are predicted l.
 *
 * Both inputs are single-channel, so an image is one flat sequence of pixel labels.
 */
module ParseEvaluate {
  import opened Wrappers
  import opened Blob
  import opened Sums

  /** The layer's parameters: num_labels may be missing, ignore_label may repeat. */
  datatype Param = Param(numLabels: Option<nat>, ignoreLabels: seq<int>)

  /** A configured layer. */
  datatype Evaluator = Evaluator(numLabels: nat, ignore: set<int>)

  /**
   * The checks of set-up, reshape and forward that abort the source, and
   * EmptyBatch for the integer division by num that faults when num is 0.
   */
  datatype EvalError =
    | MissingNumLabels
    | NumMismatch
    | ChannelMismatch
    | NotSingleChannel
    | HeightMismatch
    | WidthTooSmall
    | CountMismatch
    | EmptyBatch

  /** Set-up: num_labels is mandatory; the ignore labels become a set. */
  function SetUp(p: Param): (r: Result<Evaluator, EvalError>)
    ensures r.Failure? <==> p.numLabels.None?
    ensures r.Failure? ==> r.error == MissingNumLabels
    ensures r.Success? ==> r.value.numLabels == p.numLabels.value
    ensures r.Success? ==> forall l :: l in r.value.ignore <==> l in p.ignoreLabels
  {
    match p.numLabels
    case None => Failure(MissingNumLabels)
    case Some(n) => Success(Evaluator(n, set l | l in p.ignoreLabels))
  }

  /**
   * Reshape: the prediction and the label blob must agree in num, channels and height,
   * be single-channel, and the prediction must be at least as wide. The output holds
   * one row of three counters per label.
   */
  function Reshape(e: Evaluator, predShape: Shape, labelShape: Shape): (r: Result<Shape, EvalError>)
    ensures r.Success? <==>
      predShape.num == labelShape.num && predShape.channels == labelShape.channels == 1 &&
      predShape.height == labelShape.height && predShape.width >= labelShape.width
    ensures r.Success? ==> r.value == Shape(1, e.numLabels, 1, 3) && Volume(r.value) == 3 * e.numLabels
    ensures predShape.num != labelShape.num ==> r == Failure(NumMismatch)
    ensures predShape.num == labelShape.num && predShape.channels != labelShape.channels ==> r == Failure(ChannelMismatch)
    ensures predShape.num == labelShape.num && predShape.channels == labelShape.channels != 1 ==> r == Failure(NotSingleChannel)
    ensures r.Failure? && predShape.num == labelShape.num && predShape.channels == labelShape.channels == 1 ==>
      r.error == (if predShape.height != labelShape.height then HeightMismatch else WidthTooSmall)
  {
    if predShape.num != labelShape.num then Failure(NumMismatch)
    else if predShape.channels != labelShape.channels then Failure(ChannelMismatch)
    else if predShape.channels != 1 then Failure(NotSingleChannel)
    else if predShape.height != labelShape.height then Failure(HeightMismatch)
    else if predShape.width < labelShape.width then Failure(WidthTooSmall)
    else Success(Shape(1, e.numLabels, 1, 3))
  }

  /** x holds one image of channels * height * width labels per item of the batch. */
  predicate Fits(x: seq<seq<int>>, s: Shape)
  {
    |x| == s.num && forall i :: 0 <= i < |x| ==> |x[i]| == s.channels * (s.height * s.width)
  }

  /** Prediction and ground truth have the same images, pixel for pixel. */
  predicate Paired(pred: seq<seq<int>>, gt: seq<seq<int>>)
  {
    |pred| == |gt| && forall i :: 0 <= i < |gt| ==> |pred[i]| == |gt[i]|
  }

  /** The three counters of one label. */
  datatype Tally = Tally(correct: nat, truth: nat, predicted: nat)

  const NoHits := Tally(0, 0, 0)

  function Plus(a: Tally, b: Tally): Tally
  {
    Tally(a.correct + b.correct, a.truth + b.truth, a.predicted + b.predicted)
  }

  /** What a pixel predicted p with ground truth g adds to label l's counters. */
  function PixelTally(e: Evaluator, p: int, g: int, l: int): Tally
  {
    if g in e.ignore then NoHits
    else Tally(if g == l && p == l then 1 else 0, if g == l then 1 else 0, if p == l then 1 else 0)
  }

  /** Label l's counters over the first k pixels of one image. */
  function ImageTally(e: Evaluator, p: seq<int>, g: seq<int>, l: int, k: nat): Tally
    requires k <= |p| && k <= |g|
  {
    if k == 0 then NoHits else Plus(ImageTally(e, p, g, l, k - 1), PixelTally(e, p[k - 1], g[k - 1], l))
  }

  /** Label l's counters over the first i images of the batch. */
  function BatchTally(e: Evaluator, pred: seq<seq<int>>, gt: seq<seq<int>>, l: int, i: nat): Tally
    requires Paired(pred, gt) && i <= |gt|
  {
    if i == 0 then NoHits
    else Plus(BatchTally(e, pred, gt, l, i - 1), ImageTally(e, pred[i - 1], gt[i - 1], l, |gt[i - 1]|))
  }

  /** Label l's counters over the whole batch: the reference the layer must produce. */
  function Expected(e: Evaluator, pred: seq<seq<int>>, gt: seq<seq<int>>, l: int): Tally
    requires Paired(pred, gt)
  {
    BatchTally(e, pred, gt, l, |gt|)
  }

  /** Every pixel that is not ignored has ground truth and prediction in [0, numLabels). */
  predicate LabelsInRange(e: Evaluator, pred: seq<seq<int>>, gt: seq<seq<int>>)
    requires Paired(pred, gt)
  {
    forall i, j :: 0 <= i < |gt| && 0 <= j < |gt[i]| && gt[i][j] !in e.ignore ==>
      0 <= gt[i][j] < e.numLabels && 0 <= pred[i][j] < e.numLabels
  }

  /** The distinct labels of one image. */
  function Values(s: seq<int>): (vs: set<int>)
    ensures forall v :: v in vs <==> exists j :: 0 <= j < |s| && s[j] == v
  {
    set j | 0 <= j < |s| :: s[j]
  }

  /** The top blob's data: label l's counters sit at cells 3l, 3l + 1 and 3l + 2. */
  function Flatten(ts: seq<Tally>): (top: seq<nat>)
    ensures |top| == 3 * |ts|
    ensures forall l :: 0 <= l < |ts| ==>
      top[3 * l] == ts[l].correct && top[3 * l + 1] == ts[l].truth && top[3 * l + 2] == ts[l].predicted
  {
    if |ts| == 0 then []
    else
      var last := ts[|ts| - 1];
      Flatten(ts[..|ts| - 1]) + [last.correct, last.truth, last.predicted]
  }

  /** A label that occurs nowhere in the first k pixels gets no counts from them. */
  lemma {:induction false} AbsentLabel(e: Evaluator, p: seq<int>, g: seq<int>, l: int, k: nat)
    requires k <= |p| && k <= |g|
    requires forall j :: 0 <= j < k ==> p[j] != l && g[j] != l
    ensures ImageTally(e, p, g, l, k) == NoHits
  {
    if k > 0 {
      AbsentLabel(e, p, g, l, k - 1);
    }
  }

  /** Some pixel among the first k that is not ignored has l as ground truth or prediction. */
  predicate PresentIn(e: Evaluator, p: seq<int>, g: seq<int>, l: int, k: nat)
    requires k <= |p| && k <= |g|
  {
    exists j :: 0 <= j < k && g[j] !in e.ignore && (g[j] == l || p[j] == l)
  }

  /** Some counter of t is positive. */
  predicate Hit(t: Tally)
  {
    t.correct > 0 || t.truth > 0 || t.predicted > 0
  }

  lemma HitIsNonZero(t: Tally)
    ensures Hit(t) <==> t != NoHits
  {
  }

  /** A sum of tallies has a positive counter exactly when one of its parts has. */
  lemma PlusHits(a: Tally, b: Tally)
    ensures Hit(Plus(a, b)) <==> Hit(a) || Hit(b)
  {
  }

  /** Extending the image prefix by one pixel adds that pixel to the presence test. */
  lemma PresentStep(e: Evaluator, p: seq<int>, g: seq<int>, l: int, k: nat)
    requires 0 < k <= |p| && k <= |g|
    ensures PresentIn(e, p, g, l, k) <==>
      PresentIn(e, p, g, l, k - 1) || (g[k - 1] !in e.ignore && (g[k - 1] == l || p[k - 1] == l))
  {
    if PresentIn(e, p, g, l, k) {
      var j :| 0 <= j < k && g[j] !in e.ignore && (g[j] == l || p[j] == l);
      if j < k - 1 {
        assert PresentIn(e, p, g, l, k - 1);
      }
    }
    if PresentIn(e, p, g, l, k - 1) {
      var j :| 0 <= j < k - 1 && g[j] !in e.ignore && (g[j] == l || p[j] == l);
      assert PresentIn(e, p, g, l, k);
    }
    if g[k - 1] !in e.ignore && (g[k - 1] == l || p[k - 1] == l) {
      assert PresentIn(e, p, g, l, k);
    }
  }

  /**
   * Label l gets a non-zero count from the first k pixels of an image exactly when it is
   * the ground truth or the prediction of one of them that is not ignored.
   */
  lemma {:induction false} CountedIffPresent(e: Evaluator, p: seq<int>, g: seq<int>, l: int, k: nat)
    requires k <= |p| && k <= |g|
    ensures Hit(ImageTally(e, p, g, l, k)) <==> PresentIn(e, p, g, l, k)
  {
    if k > 0 {
      CountedIffPresent(e, p, g, l, k - 1);
      PlusHits(ImageTally(e, p, g, l, k - 1), PixelTally(e, p[k - 1], g[k - 1], l));
      PresentStep(e, p, g, l, k);
    }
  }

  /**
   * Visiting only the labels that occur in an image's ground truth or prediction misses
   * no counts: every label with a non-zero count over the image is among them.
   */
  lemma ImageLabelsSuffice(e: Evaluator, p: seq<int>, g: seq<int>, l: int)
    requires |p| == |g|
    ensures ImageTally(e, p, g, l, |g|) != NoHits ==> l in Values(g) + Values(p)
  {
    CountedIffPresent(e, p, g, l, |g|);
    HitIsNonZero(ImageTally(e, p, g, l, |g|));
  }

  /** The counting loop of one label over one image, skipping ignored pixels. */
  method CountLabel(e: Evaluator, ignored: seq<bool>, p: seq<int>, g: seq<int>, l: int) returns (t: Tally)
    requires |p| == |g| == |ignored|
    requires forall j :: 0 <= j < |g| ==> ignored[j] == (g[j] in e.ignore)
    ensures t == ImageTally(e, p, g, l, |g|)
  {
    var correct, truth, predicted := 0, 0, 0;
    for j := 0 to |g|
      invariant Tally(correct, truth, predicted) == ImageTally(e, p, g, l, j)
    {
      if ignored[j] {
        continue;
      }
      if g[j] == l {
        truth := truth + 1;
        if p[j] == l {
          correct := correct + 1;
        }
      }
      if p[j] == l {
        predicted := predicted + 1;
      }
    }
    t := Tally(correct, truth, predicted);
  }

  /**
   * One image of the forward pass: visit the labels present in its ground truth or
   * prediction, count each over the non-ignored pixels and add the counts to that label's
   * row. Labels outside [0, numLabels) are skipped rather than written past the end.
   */
  method AddImage(e: Evaluator, top: seq<Tally>, p: seq<int>, g: seq<int>) returns (top': seq<Tally>)
    requires |p| == |g|
    ensures |top'| == |top|
    ensures forall l :: 0 <= l < |top| && l < e.numLabels ==> top'[l] == Plus(top[l], ImageTally(e, p, g, l, |g|))
    ensures forall l :: e.numLabels <= l < |top| ==> top'[l] == top[l]
  {
    var labels := Values(g) + Values(p);
    var ignored := seq(|g|, j requires 0 <= j < |g| => g[j] in e.ignore);
    var todo, done := labels, {};
    top' := top;
    while todo != {}
      invariant todo <= labels && done == labels - todo
      invariant |top'| == |top|
      invariant forall l :: 0 <= l < |top| && l < e.numLabels ==>
        top'[l] == Plus(top[l], if l in done then ImageTally(e, p, g, l, |g|) else NoHits)
      invariant forall l :: e.numLabels <= l < |top| ==> top'[l] == top[l]
      decreases |todo|
    {
      var l :| l in todo;
      var t := CountLabel(e, ignored, p, g, l);
      if 0 <= l < e.numLabels && l < |top'| {
        top' := top'[l := Plus(top'[l], t)];
      }
      todo, done := todo - {l}, done + {l};
    }
    forall l | 0 <= l < |top| && l !in labels
      ensures ImageTally(e, p, g, l, |g|) == NoHits
    {
      AbsentLabel(e, p, g, l, |g|);
    }
  }

  /**
   * Forward: after the count check and the per-image size (count / num, a fault when
   * num is 0), start every label's counters at zero and add each image's counts in
   * turn; the result is laid out as the 1 x numLabels x 1 x 3 output.
   */
  method Forward(e: Evaluator, predShape: Shape, labelShape: Shape, pred: seq<seq<int>>, gt: seq<seq<int>>)
    returns (r: Result<seq<nat>, EvalError>)
    requires Reshape(e, predShape, labelShape).Success?
    requires Fits(pred, predShape) && Fits(gt, labelShape)
    ensures r.Failure? <==> Volume(predShape) != Volume(labelShape) || predShape.num == 0
    ensures Volume(predShape) != Volume(labelShape) ==> r == Failure(CountMismatch)
    ensures Volume(predShape) == Volume(labelShape) && predShape.num == 0 ==> r == Failure(EmptyBatch)
    ensures r.Success? ==> Paired(pred, gt) && |r.value| == 3 * e.numLabels
    ensures r.Success? ==> forall l :: 0 <= l < e.numLabels ==>
      r.value[3 * l] == Expected(e, pred, gt, l).correct &&
      r.value[3 * l + 1] == Expected(e, pred, gt, l).truth &&
      r.value[3 * l + 2] == Expected(e, pred, gt, l).predicted
  {
    if Volume(predShape) != Volume(labelShape) {
      return Failure(CountMismatch);
    }
    if predShape.num == 0 {
      return Failure(EmptyBatch);
    }
    SameImageSize(predShape, labelShape);
    var top := seq(e.numLabels, _ => NoHits);
    for i := 0 to |gt|
      invariant |top| == e.numLabels
      invariant forall l :: 0 <= l < e.numLabels ==> top[l] == BatchTally(e, pred, gt, l, i)
    {
      top := AddImage(e, top, pred[i], gt[i]);
    }
    return Success(Flatten(top));
  }

  /** Equal counts with equal num, channels and height give images of equal size. */
  lemma SameImageSize(predShape: Shape, labelShape: Shape)
    requires predShape.num == labelShape.num && predShape.channels == labelShape.channels
    requires Volume(predShape) == Volume(labelShape)
    ensures predShape.num > 0 ==>
      predShape.channels * (predShape.height * predShape.width) == labelShape.channels * (labelShape.height * labelShape.width)
  {
    var n := predShape.num;
    var a, b := predShape.channels * (predShape.height * predShape.width), labelShape.channels * (labelShape.height * labelShape.width);
    assert Volume(predShape) == n * a && Volume(labelShape) == n * b;
    MulStrict(n, a, b);
    MulStrict(n, b, a);
  }

  lemma MulStrict(n: nat, a: nat, b: nat)
    ensures n > 0 && a < b ==> n * a < n * b
  {
    if n > 0 && a < b {
      assert n * b - n * a == n * (b - a);
    }
  }

  // ---- properties of the counters ----

  predicate Consistent(t: Tally)
  {
    t.correct <= t.truth && t.correct <= t.predicted
  }

  lemma {:induction false} ImageConsistent(e: Evaluator, p: seq<int>, g: seq<int>, l: int, k: nat)
    requires k <= |p| && k <= |g|
    ensures Consistent(ImageTally(e, p, g, l, k))
  {
    if k > 0 {
      ImageConsistent(e, p, g, l, k - 1);
    }
  }

  /** A label is never predicted correctly more often than it occurs or is predicted. */
  lemma {:induction false} CorrectBounded(e: Evaluator, pred: seq<seq<int>>, gt: seq<seq<int>>, l: int, i: nat)
    requires Paired(pred, gt) && i <= |gt|
    ensures BatchTally(e, pred, gt, l, i).correct <= BatchTally(e, pred, gt, l, i).truth
    ensures BatchTally(e, pred, gt, l, i).correct <= BatchTally(e, pred, gt, l, i).predicted
  {
    if i > 0 {
      CorrectBounded(e, pred, gt, l, i - 1);
      ImageConsistent(e, pred[i - 1], gt[i - 1], l, |gt[i - 1]|);
    }
  }

  lemma {:induction false} ImageIgnoredNoTruth(e: Evaluator, p: seq<int>, g: seq<int>, l: int, k: nat)
    requires k <= |p| && k <= |g| && l in e.ignore
    ensures ImageTally(e, p, g, l, k).truth == 0 && ImageTally(e, p, g, l, k).correct == 0
  {
    if k > 0 {
      ImageIgnoredNoTruth(e, p, g, l, k - 1);
    }
  }

  /** An ignore label never counts as ground truth, so it is never predicted correctly either. */
  lemma {:induction false} IgnoredLabelNoTruth(e: Evaluator, pred: seq<seq<int>>, gt: seq<seq<int>>, l: int, i: nat)
    requires Paired(pred, gt) && i <= |gt| && l in e.ignore
    ensures BatchTally(e, pred, gt, l, i).truth == 0 && BatchTally(e, pred, gt, l, i).correct == 0
  {
    if i > 0 {
      IgnoredLabelNoTruth(e, pred, gt, l, i - 1);
      ImageIgnoredNoTruth(e, pred[i - 1], gt[i - 1], l, |gt[i - 1]|);
    }
  }

  /** The pixels of two images agree except where both have an ignored ground truth. */
  predicate SameKept(e: Evaluator, p: seq<int>, g: seq<int>, p': seq<int>, g': seq<int>, k: nat)
    requires k <= |p| && k <= |g| && k <= |p'| && k <= |g'|
  {
    forall j :: 0 <= j < k ==>
      (g[j] in e.ignore <==> g'[j] in e.ignore) &&
      (g[j] !in e.ignore ==> g'[j] == g[j] && p'[j] == p[j])
  }

  lemma {:induction false} ImageInert(e: Evaluator, p: seq<int>, g: seq<int>, p': seq<int>, g': seq<int>, l: int, k: nat)
    requires k <= |p| && k <= |g| && k <= |p'| && k <= |g'|
    requires SameKept(e, p, g, p', g', k)
    ensures ImageTally(e, p, g, l, k) == ImageTally(e, p', g', l, k)
  {
    if k > 0 {
      ImageInert(e, p, g, p', g', l, k - 1);
    }
  }

  /**
   * Pixels with an ignored ground truth count for nothing: changing their prediction, or
   * their ground truth to another ignore label, changes none of the counters.
   */
  lemma {:induction false} IgnoredPixelsInert(e: Evaluator, pred: seq<seq<int>>, gt: seq<seq<int>>, pred': seq<seq<int>>, gt': seq<seq<int>>, l: int, i: nat)
    requires Paired(pred, gt) && Paired(pred', gt') && |gt'| == |gt| && i <= |gt|
    requires forall n :: 0 <= n < |gt| ==> |gt'[n]| == |gt[n]| && SameKept(e, pred[n], gt[n], pred'[n], gt'[n], |gt[n]|)
    ensures BatchTally(e, pred, gt, l, i) == BatchTally(e, pred', gt', l, i)
  {
    if i > 0 {
      IgnoredPixelsInert(e, pred, gt, pred', gt', l, i - 1);
      ImageInert(e, pred[i - 1], gt[i - 1], pred'[i - 1], gt'[i - 1], l, |gt[i - 1]|);
    }
  }

  // ---- totals over all labels ----

  /** f(0) + ... + f(n - 1) in natural numbers. */
  function Total(n: nat, f: nat -> nat): nat
  {
    if n == 0 then 0 else Total(n - 1, f) + f(n - 1)
  }

  lemma {:induction false} TotalAdd(n: nat, f: nat -> nat, g: nat -> nat, h: nat -> nat)
    requires forall l :: 0 <= l < n ==> h(l) == f(l) + g(l)
    ensures Total(n, h) == Total(n, f) + Total(n, g)
  {
    if n > 0 {
      TotalAdd(n - 1, f, g, h);
    }
  }

  /** Summing the indicator of one value k over 0..n-1 gives 1 when k is in range, else 0. */
  lemma {:induction false} TotalIndicator(n: nat, k: int, f: nat -> nat)
    requires forall l :: 0 <= l < n ==> f(l) == (if l == k then 1 else 0)
    ensures Total(n, f) == if 0 <= k < n then 1 else 0
  {
    if n > 0 {
      TotalIndicator(n - 1, k, f);
    }
  }

  lemma {:induction false} TotalZero(n: nat, f: nat -> nat)
    requires forall l :: 0 <= l < n ==> f(l) == 0
    ensures Total(n, f) == 0
  {
    if n > 0 {
      TotalZero(n - 1, f);
    }
  }

  /** Which pixels of an image are not ignored. */
  function KeptMask(e: Evaluator, g: seq<int>): nat -> bool
  {
    (j: nat) => j < |g| && g[j] !in e.ignore
  }

  /** Number of non-ignored pixels of each image. */
  function KeptPerImage(e: Evaluator, gt: seq<seq<int>>): nat -> nat
  {
    (i: nat) => if i < |gt| then Count(|gt[i]|, KeptMask(e, gt[i])) else 0
  }

  /** Number of non-ignored pixels in the batch. */
  function Kept(e: Evaluator, gt: seq<seq<int>>): nat
  {
    Total(|gt|, KeptPerImage(e, gt))
  }

  /** The ground-truth counter of a tally when truth holds, its prediction counter otherwise. */
  function Side(t: Tally, truth: bool): nat
  {
    if truth then t.truth else t.predicted
  }

  lemma {:induction false} ImageTotals(e: Evaluator, p: seq<int>, g: seq<int>, k: nat, truth: bool, counts: nat -> nat)
    requires k <= |p| && k <= |g|
    requires forall j :: 0 <= j < k && g[j] !in e.ignore ==> 0 <= g[j] < e.numLabels && 0 <= p[j] < e.numLabels
    requires forall l: nat :: counts(l) == Side(ImageTally(e, p, g, l, k), truth)
    ensures Total(e.numLabels, counts) == Count(k, KeptMask(e, g))
  {
    var L := e.numLabels;
    if k == 0 {
      TotalZero(L, counts);
    } else {
      var j := k - 1;
      var counts0 := (l: nat) => Side(ImageTally(e, p, g, l, j), truth);
      var counts1 := (l: nat) => Side(PixelTally(e, p[j], g[j], l), truth);
      ImageTotals(e, p, g, j, truth, counts0);
      TotalAdd(L, counts0, counts1, counts);
      if g[j] in e.ignore {
        TotalZero(L, counts1);
      } else {
        TotalIndicator(L, if truth then g[j] else p[j], counts1);
      }
    }
  }

  /** The last image's counters add to those of the images before it. */
  lemma BatchTallyStep(e: Evaluator, pred: seq<seq<int>>, gt: seq<seq<int>>, l: int, i: nat, truth: bool)
    requires Paired(pred, gt) && 1 <= i <= |gt|
    ensures Side(BatchTally(e, pred, gt, l, i), truth) ==
      Side(BatchTally(e, pred, gt, l, i - 1), truth) + Side(ImageTally(e, pred[i - 1], gt[i - 1], l, |gt[i - 1]|), truth)
  {
  }

  /** Image i's non-ignored pixels lie in range. */
  lemma ImageInRange(e: Evaluator, pred: seq<seq<int>>, gt: seq<seq<int>>, i: nat)
    requires Paired(pred, gt) && LabelsInRange(e, pred, gt) && i < |gt|
    ensures forall j :: 0 <= j < |gt[i]| && gt[i][j] !in e.ignore ==>
      0 <= gt[i][j] < e.numLabels && 0 <= pred[i][j] < e.numLabels
  {
  }

  lemma {:induction false} BatchTotals(e: Evaluator, pred: seq<seq<int>>, gt: seq<seq<int>>, i: nat, truth: bool, counts: nat -> nat)
    requires Paired(pred, gt) && LabelsInRange(e, pred, gt) && i <= |gt|
    requires forall l: nat :: counts(l) == Side(BatchTally(e, pred, gt, l, i), truth)
    ensures Total(e.numLabels, counts) == Total(i, KeptPerImage(e, gt))
  {
    if i == 0 {
      TotalZero(e.numLabels, counts);
    } else {
      var counts0 := (l: nat) => Side(BatchTally(e, pred, gt, l, i - 1), truth);
      BatchTotals(e, pred, gt, i - 1, truth, counts0);
      BatchTotalsStep(e, pred, gt, i, truth, counts0, counts);
    }
  }

  /** Adding image i - 1 adds its non-ignored pixels to the total over all labels. */
  lemma BatchTotalsStep(e: Evaluator, pred: seq<seq<int>>, gt: seq<seq<int>>, i: nat, truth: bool, counts0: nat -> nat, counts: nat -> nat)
    requires Paired(pred, gt) && LabelsInRange(e, pred, gt) && 1 <= i <= |gt|
    requires forall l: nat :: counts0(l) == Side(BatchTally(e, pred, gt, l, i - 1), truth)
    requires forall l: nat :: counts(l) == Side(BatchTally(e, pred, gt, l, i), truth)
    requires Total(e.numLabels, counts0) == Total(i - 1, KeptPerImage(e, gt))
    ensures Total(e.numLabels, counts) == Total(i, KeptPerImage(e, gt))
  {
    var L, n := e.numLabels, i - 1;
    var counts1 := (l: nat) => Side(ImageTally(e, pred[n], gt[n], l, |gt[n]|), truth);
    SplitCounts(e, pred, gt, i, truth, counts0, counts1, counts);
    TotalAdd(L, counts0, counts1, counts);
    ImageInRange(e, pred, gt, n);
    ImageTotals(e, pred[n], gt[n], |gt[n]|, truth, counts1);
    KeptStep(e, gt, i);
  }

  lemma SplitCounts(e: Evaluator, pred: seq<seq<int>>, gt: seq<seq<int>>, i: nat, truth: bool, counts0: nat -> nat, counts1: nat -> nat, counts: nat -> nat)
    requires Paired(pred, gt) && 1 <= i <= |gt|
    requires forall l: nat :: counts0(l) == Side(BatchTally(e, pred, gt, l, i - 1), truth)
    requires forall l: nat :: counts1(l) == Side(ImageTally(e, pred[i - 1], gt[i - 1], l, |gt[i - 1]|), truth)
    requires forall l: nat :: counts(l) == Side(BatchTally(e, pred, gt, l, i), truth)
    ensures forall l: nat :: counts(l) == counts0(l) + counts1(l)
  {
    forall l: nat
      ensures counts(l) == counts0(l) + counts1(l)
    {
      BatchTallyStep(e, pred, gt, l, i, truth);
    }
  }

  lemma KeptStep(e: Evaluator, gt: seq<seq<int>>, i: nat)
    requires 1 <= i <= |gt|
    ensures Total(i, KeptPerImage(e, gt)) == Total(i - 1, KeptPerImage(e, gt)) + Count(|gt[i - 1]|, KeptMask(e, gt[i - 1]))
  {
  }

  /**
   * Every non-ignored pixel has exactly one ground truth and one prediction in range, so
   * the ground-truth counters and the prediction counters both add up to the number of
   * non-ignored pixels in the batch.
   */
  lemma Totals(e: Evaluator, pred: seq<seq<int>>, gt: seq<seq<int>>, truths: nat -> nat, preds: nat -> nat)
    requires Paired(pred, gt) && LabelsInRange(e, pred, gt)
    requires forall l: nat :: truths(l) == Expected(e, pred, gt, l).truth
    requires forall l: nat :: preds(l) == Expected(e, pred, gt, l).predicted
    ensures Total(e.numLabels, truths) == Kept(e, gt)
    ensures Total(e.numLabels, preds) == Kept(e, gt)
  {
    BatchTotals(e, pred, gt, |gt|, true, truths);
    BatchTotals(e, pred, gt, |gt|, false, preds);
  }

  // ---- the out-of-range write of the source ----

  /**
   * The labels whose three output cells the source's forward pass writes: every value that
   * occurs as ground truth or prediction in some image, whether its pixels are ignored or not.
   */
  function WrittenLabels(pred: seq<seq<int>>, gt: seq<seq<int>>): (ls: set<int>)
    requires Paired(pred, gt)
    ensures forall l :: l in ls <==>
      exists i, j :: 0 <= i < |gt| && 0 <= j < |gt[i]| && (gt[i][j] == l || pred[i][j] == l)
  {
    (set i, j | 0 <= i < |gt| && 0 <= j < |gt[i]| :: gt[i][j]) +
    (set i, j | 0 <= i < |gt| && 0 <= j < |gt[i]| :: pred[i][j])
  }

  /** Some pixel of the first i images that is not ignored has l as ground truth or prediction. */
  predicate PresentInBatch(e: Evaluator, pred: seq<seq<int>>, gt: seq<seq<int>>, l: int, i: nat)
    requires Paired(pred, gt) && i <= |gt|
  {
    exists a :: 0 <= a < i && PresentIn(e, pred[a], gt[a], l, |gt[a]|)
  }

  /**
   * Label l has a non-zero count over the first i images exactly when it is the ground truth
   * or the prediction of some pixel that is not ignored.
   */
  lemma {:induction false} BatchCountedIffPresent(e: Evaluator, pred: seq<seq<int>>, gt: seq<seq<int>>, l: int, i: nat)
    requires Paired(pred, gt) && i <= |gt|
    ensures Hit(BatchTally(e, pred, gt, l, i)) <==> PresentInBatch(e, pred, gt, l, i)
  {
    if i > 0 {
      BatchCountedIffPresent(e, pred, gt, l, i - 1);
      CountedIffPresent(e, pred[i - 1], gt[i - 1], l, |gt[i - 1]|);
      PlusHits(BatchTally(e, pred, gt, l, i - 1), ImageTally(e, pred[i - 1], gt[i - 1], l, |gt[i - 1]|));
      if PresentInBatch(e, pred, gt, l, i) {
        var a :| 0 <= a < i && PresentIn(e, pred[a], gt[a], l, |gt[a]|);
        if a < i - 1 {
          assert PresentInBatch(e, pred, gt, l, i - 1);
        }
      }
      if PresentInBatch(e, pred, gt, l, i - 1) {
        var a :| 0 <= a < i - 1 && PresentIn(e, pred[a], gt[a], l, |gt[a]|);
        assert PresentInBatch(e, pred, gt, l, i);
      }
    }
  }

  /**
   * The labels the source writes include every label with a non-zero count, so writing only
   * those loses nothing; IgnoreLabelWrittenOutOfRange shows the inclusion is strict.
   */
  lemma WrittenLabelsSuffice(e: Evaluator, pred: seq<seq<int>>, gt: seq<seq<int>>, l: int)
    requires Paired(pred, gt)
    ensures Expected(e, pred, gt, l) != NoHits ==> l in WrittenLabels(pred, gt)
  {
    BatchCountedIffPresent(e, pred, gt, l, |gt|);
    HitIsNonZero(Expected(e, pred, gt, l));
    if PresentInBatch(e, pred, gt, l, |gt|) {
      var a :| 0 <= a < |gt| && PresentIn(e, pred[a], gt[a], l, |gt[a]|);
      var j :| 0 <= j < |gt[a]| && gt[a][j] !in e.ignore && (gt[a][j] == l || pred[a][j] == l);
    }
  }

  /**
   * With num_labels 2 and ignore label 255, an image whose only pixel is ignored with ground
   * truth 255 meets every range requirement, yet the source writes cell 3 * 255 of an output
   * of 3 * 2 cells.
   */
  lemma IgnoreLabelWrittenOutOfRange()
    ensures var e, pred, gt := Evaluator(2, {255}), [[0]], [[255]];
      Paired(pred, gt) && LabelsInRange(e, pred, gt) &&
      255 in WrittenLabels(pred, gt) && 3 * 255 >= 3 * e.numLabels
  {
    var e, pred, gt := Evaluator(2, {255}), [[0]], [[255]];
    assert gt[0][0] == 255;
  }
}

=== FILE: row_major.dfy ===
/**
 * Row-major flattening: cell (r, c) of a rows x cols grid is cell
 * r * cols + c of the flat sequence, and integer division and remainder by
 * cols recover r and c.
 */
module RowMajor {

  lemma MulMonotone(a: int, b: int, c: nat)
    requires a <= b
    ensures a * c <= b * c
  {
    assert b * c - a * c == (b - a) * c;
  }

  lemma MulAwayFromZero(k: int, d: int)
    requires d > 0
    ensures k >= 1 ==> k * d >= d
    ensures k <= -1 ==> k * d <= -d
  {
    if k >= 1 {
      MulMonotone(1, k, d);
    } else if k <= -1 {
      MulMonotone(k, -1, d);
    }
  }

  /** Euclidean quotient and remainder are determined by n == q * d + r with 0 <= r < d. */
  lemma DivModUnique(n: int, d: int, q: int, r: int)
    requires d > 0 && 0 <= r < d && n == q * d + r
    ensures n / d == q && n % d == r
  {
    var q', r' := n / d, n % d;
    assert (q - q') * d == r' - r;
    MulAwayFromZero(q - q', d);
  }

  /** Row-major flattening of (r, c) stays in range and is undone by / and %. */
  lemma FlatIndex(r: nat, c: nat, rows: nat, cols: nat)
    requires r < rows && c < cols
    ensures r * cols + c < rows * cols
    ensures (r * cols + c) / cols == r && (r * cols + c) % cols == c
  {
    MulMonotone(r + 1, rows, cols);
    assert (r + 1) * cols == r * cols + cols;
    DivModUnique(r * cols + c, cols, r, c);
  }

  /** A flat index below rows * cols splits into a row below rows and a column below cols. */
  lemma FlatBounds(i: nat, rows: nat, cols: nat)
    requires i < rows * cols
    ensures cols > 0 && i / cols < rows && i % cols < cols
  {
    assert cols != 0;
    assert i == (i / cols) * cols + i % cols;
    if i / cols >= rows {
      MulMonotone(rows, i / cols, cols);
    }
  }
}

=== FILE: spreading.dfy ===
/**
 * Spreading values over overlapping windows and gathering them back, for an
 * arbitrary cover relation between S source cells and U destination cells.
 * Each destination cell carries a count (the mask); a source value reaching a
 * covered cell is divided by that cell's count. DIV and REP unpooling are
 * instances with the geometric window relation.
 */
module Spreading {
  import opened Sums
  import opened LinearMaps

  /**
   * The cover relation stays inside the grids and every covered destination
   * cell has a positive count, so dividing by it is safe.
   */
  ghost predicate Cover(S: nat, U: nat, cov: (nat, nat) -> bool, mask: seq<int>)
  {
    && |mask| == U
    && forall s: nat, u: nat :: cov(s, u) ==> s < S && u < U && mask[u] >= 1
  }

  /** Each mask entry is exactly the number of sources covering that cell. */
  ghost predicate Counts(S: nat, U: nat, cov: (nat, nat) -> bool, mask: seq<int>)
  {
    && |mask| == U
    && forall u :: 0 <= u < U ==> mask[u] == Count(S, (s: nat) => cov(s, u))
  }

  /** Fraction of a source value that reaches destination cell u: one over its count if covered. */
  function Share(cov: (nat, nat) -> bool, mask: seq<int>, s: nat, u: nat): real
  {
    if cov(s, u) && u < |mask| && mask[u] > 0 then 1.0 / (mask[u] as real) else 0.0
  }

  /** What source s spreads onto destination u: v[s] / mask[u] if covered, else 0. */
  function Portion(cov: (nat, nat) -> bool, mask: seq<int>, v: seq<real>, s: nat, u: nat): real
  {
    if cov(s, u) && u < |mask| && mask[u] > 0 then At(v, s) / (mask[u] as real) else 0.0
  }

  /** Everything the S sources spread onto destination u. */
  function Received(S: nat, cov: (nat, nat) -> bool, mask: seq<int>, v: seq<real>, u: nat): real
  {
    Sum(S, (s: nat) => Portion(cov, mask, v, s, u))
  }

  /** Sum of the source values covering destination u. */
  function CoveredTotal(S: nat, cov: (nat, nat) -> bool, v: seq<real>, u: nat): real
  {
    Sum(S, (s: nat) => if cov(s, u) then At(v, s) else 0.0)
  }

  /**
   * Scatter of the first k sources, in source order: every covered cell u of
   * source s gets v[s] / mask[u] added. Each cell ends up with what it receives.
   */
  function SpreadUpTo(S: nat, U: nat, cov: (nat, nat) -> bool, mask: seq<int>, v: seq<real>, k: nat): (y: seq<real>)
    requires Cover(S, U, cov, mask) && |v| == S && k <= S
    ensures |y| == U
    ensures forall u :: 0 <= u < U ==> y[u] == Sum(k, (s: nat) => Portion(cov, mask, v, s, u))
  {
    if k == 0 then
      Zeros(U)
    else
      var prev := SpreadUpTo(S, U, cov, mask, v, k - 1);
      seq(U, (u: nat) requires u < U =>
        prev[u] + if cov(k - 1, u) then v[k - 1] / (mask[u] as real) else 0.0)
  }

  /** Scatter of all sources. */
  function Spread(S: nat, U: nat, cov: (nat, nat) -> bool, mask: seq<int>, v: seq<real>): (y: seq<real>)
    requires Cover(S, U, cov, mask) && |v| == S
    ensures |y| == U
    ensures forall u :: 0 <= u < U ==> y[u] == Received(S, cov, mask, v, u)
  {
    SpreadUpTo(S, U, cov, mask, v, S)
  }

  /** What source s collects from its covered cells: dy[u] / mask[u] each. */
  function Gather(S: nat, U: nat, cov: (nat, nat) -> bool, mask: seq<int>, dy: seq<real>, s: nat): real
    requires Cover(S, U, cov, mask)
  {
    Sum(U, (u: nat) => if cov(s, u) then At(dy, u) / (mask[u] as real) else 0.0)
  }

  /**
   * Gather for every source. It is the transpose of spreading: source s
   * collects the share Share(s, u) of every destination value dy[u].
   */
  function GatherAll(S: nat, U: nat, cov: (nat, nat) -> bool, mask: seq<int>, dy: seq<real>): (dx: seq<real>)
    requires Cover(S, U, cov, mask)
    ensures |dx| == S
    ensures forall s :: 0 <= s < S ==> dx[s] == Gather(S, U, cov, mask, dy, s)
    ensures dx == ApplyT(S, U, (s: nat, u: nat) => Share(cov, mask, s, u), dy)
  {
    var wt := (s: nat, u: nat) => Share(cov, mask, s, u);
    var dx := seq(S, (s: nat) => Gather(S, U, cov, mask, dy, s));
    assert dx == ApplyT(S, U, wt, dy) by {
      forall s | 0 <= s < S
        ensures dx[s] == ApplyT(S, U, wt, dy)[s]
      {
        GatherAt(S, U, cov, mask, wt, dy, s);
      }
    }
    dx
  }

  /** Gather with every term further divided by the source's area: dy[u] / area / mask[u]. */
  function ScaledGather(S: nat, U: nat, cov: (nat, nat) -> bool, mask: seq<int>, dy: seq<real>, s: nat, area: real): real
    requires Cover(S, U, cov, mask) && area != 0.0
  {
    Sum(U, (u: nat) => if cov(s, u) then At(dy, u) / area / (mask[u] as real) else 0.0)
  }


  lemma RealDivTwice(a: real, area: real, m: real)
    requires area != 0.0 && m != 0.0
    ensures a / area / m == ((1.0 / m) / area) * a
    ensures a / m / area == a / area / m
  {
  }

  lemma RealMulDiv(y: real, t: real, c: real, m: real)
    requires m != 0.0 && y == t / m && t == c * m
    ensures y == c
  {
  }

  lemma PortionIsShare(S: nat, U: nat, cov: (nat, nat) -> bool, mask: seq<int>, v: seq<real>, s: nat, u: nat)
    requires Cover(S, U, cov, mask)
    ensures Portion(cov, mask, v, s, u) == Share(cov, mask, s, u) * At(v, s)
  {
    if cov(s, u) && u < |mask| && mask[u] > 0 {
      RealDivAsMul(At(v, s), mask[u] as real);
    }
  }

  lemma SpreadAt(S: nat, U: nat, cov: (nat, nat) -> bool, mask: seq<int>, wt: (nat, nat) -> real, v: seq<real>, u: nat)
    requires Cover(S, U, cov, mask) && |v| == S && u < U
    requires forall s: nat, t: nat :: wt(s, t) == Share(cov, mask, s, t)
    ensures Spread(S, U, cov, mask, v)[u] == Apply(S, U, wt, v)[u]
  {
    var f := (s: nat) => Portion(cov, mask, v, s, u);
    var g := (s: nat) => wt(s, u) * At(v, s);
    forall s | 0 <= s < S
      ensures f(s) == g(s)
    {
      PortionIsShare(S, U, cov, mask, v, s, u);
    }
    SumExt(S, f, g);
  }

  /** Spreading is the linear map whose weights are the shares. */
  lemma SpreadIsLinear(S: nat, U: nat, cov: (nat, nat) -> bool, mask: seq<int>, v: seq<real>)
    requires Cover(S, U, cov, mask) && |v| == S
    ensures Spread(S, U, cov, mask, v) == Apply(S, U, (s: nat, u: nat) => Share(cov, mask, s, u), v)
  {
    var wt := (s: nat, u: nat) => Share(cov, mask, s, u);
    forall u | 0 <= u < U
      ensures Spread(S, U, cov, mask, v)[u] == Apply(S, U, wt, v)[u]
    {
      SpreadAt(S, U, cov, mask, wt, v, u);
    }
  }

  lemma GatherAt(S: nat, U: nat, cov: (nat, nat) -> bool, mask: seq<int>, wt: (nat, nat) -> real, dy: seq<real>, s: nat)
    requires Cover(S, U, cov, mask) && s < S
    requires forall t: nat, u: nat :: wt(t, u) == Share(cov, mask, t, u)
    ensures Gather(S, U, cov, mask, dy, s) == ApplyT(S, U, wt, dy)[s]
  {
    var f := (u: nat) => if cov(s, u) then At(dy, u) / (mask[u] as real) else 0.0;
    var g := (u: nat) => wt(s, u) * At(dy, u);
    forall u | 0 <= u < U
      ensures f(u) == g(u)
    {
      if cov(s, u) {
        RealDivAsMul(At(dy, u), mask[u] as real);
      }
    }
    SumExt(U, f, g);
  }

  /** Gathering is the exact adjoint of spreading. */
  lemma SpreadAdjoint(S: nat, U: nat, cov: (nat, nat) -> bool, mask: seq<int>, v: seq<real>, dy: seq<real>)
    requires Cover(S, U, cov, mask) && |v| == S && |dy| == U
    ensures Dot(Spread(S, U, cov, mask, v), dy) == Dot(v, GatherAll(S, U, cov, mask, dy))
  {
    SpreadIsLinear(S, U, cov, mask, v);
    Adjoint(S, U, (s: nat, u: nat) => Share(cov, mask, s, u), v, dy);
  }

  /** The scaled gather of one source as a weighted sum with the shares divided by area. */
  lemma ScaledGatherAt(S: nat, U: nat, cov: (nat, nat) -> bool, mask: seq<int>, wt: (nat, nat) -> real, dy: seq<real>, s: nat, area: real)
    requires Cover(S, U, cov, mask) && |dy| == U && s < S && area != 0.0
    requires forall t: nat, u: nat :: wt(t, u) == Share(cov, mask, t, u) / area
    ensures ScaledGather(S, U, cov, mask, dy, s, area) == ApplyT(S, U, wt, dy)[s]
  {
    var f := (u: nat) => if cov(s, u) then At(dy, u) / area / (mask[u] as real) else 0.0;
    var g := (u: nat) => wt(s, u) * At(dy, u);
    forall u | 0 <= u < U
      ensures f(u) == g(u)
    {
      if cov(s, u) {
        RealDivTwice(At(dy, u), area, mask[u] as real);
      }
    }
    SumExt(U, f, g);
  }

  /** Spreading values pre-divided by area is the linear map with the shares divided by area. */
  lemma ScaledSpreadAt(S: nat, U: nat, cov: (nat, nat) -> bool, mask: seq<int>, wt: (nat, nat) -> real,
                       x: seq<real>, v: seq<real>, area: real, u: nat)
    requires Cover(S, U, cov, mask) && |x| == S && |v| == S && u < U && area != 0.0
    requires forall s :: 0 <= s < S ==> v[s] == x[s] / area
    requires forall s: nat, t: nat :: wt(s, t) == Share(cov, mask, s, t) / area
    ensures Spread(S, U, cov, mask, v)[u] == Apply(S, U, wt, x)[u]
  {
    var f := (s: nat) => Portion(cov, mask, v, s, u);
    var g := (s: nat) => wt(s, u) * At(x, s);
    forall s | 0 <= s < S
      ensures f(s) == g(s)
    {
      if cov(s, u) {
        RealDivTwice(x[s], area, mask[u] as real);
      }
    }
    SumExt(S, f, g);
  }

  /**
   * A covered cell receives the mean of the values of the sources covering it
   * (their total over its count); a cell with no positive count receives 0.
   */
  lemma ReceivedMean(S: nat, U: nat, cov: (nat, nat) -> bool, mask: seq<int>, v: seq<real>, u: nat)
    requires Cover(S, U, cov, mask) && |v| == S && u < U
    ensures mask[u] > 0 ==> Received(S, cov, mask, v, u) == CoveredTotal(S, cov, v, u) / (mask[u] as real)
    ensures mask[u] <= 0 ==> Received(S, cov, mask, v, u) == 0.0
  {
    var f := (s: nat) => Portion(cov, mask, v, s, u);
    var g := (s: nat) => if cov(s, u) then At(v, s) else 0.0;
    if mask[u] > 0 {
      SumDivide(S, mask[u] as real, g, f);
    } else {
      SumZero(S, f);
    }
  }

  /** Pre-dividing every source value by area divides what every cell receives by area. */
  lemma ReceivedScaled(S: nat, U: nat, cov: (nat, nat) -> bool, mask: seq<int>, x: seq<real>, v: seq<real>, area: real, u: nat)
    requires Cover(S, U, cov, mask) && |x| == S && |v| == S && u < U && area != 0.0
    requires forall s :: 0 <= s < S ==> v[s] == x[s] / area
    ensures Received(S, cov, mask, v, u) == Received(S, cov, mask, x, u) / area
  {
    var f := (s: nat) => Portion(cov, mask, x, s, u);
    var g := (s: nat) => Portion(cov, mask, v, s, u);
    forall s | 0 <= s < S
      ensures g(s) == f(s) / area
    {
      if cov(s, u) && mask[u] > 0 {
        RealDivTwice(x[s], area, mask[u] as real);
      }
    }
    SumDivide(S, area, f, g);
  }

  /** With counting masks, spreading a constant c puts c on every covered cell and 0 elsewhere. */
  lemma ReceivedConstant(S: nat, U: nat, cov: (nat, nat) -> bool, mask: seq<int>, v: seq<real>, c: real, u: nat)
    requires Cover(S, U, cov, mask) && Counts(S, U, cov, mask) && |v| == S && u < U
    requires forall s :: 0 <= s < S ==> v[s] == c
    ensures Received(S, cov, mask, v, u) == if mask[u] > 0 then c else 0.0
  {
    ReceivedMean(S, U, cov, mask, v, u);
    if mask[u] > 0 {
      SumIndicator(S, (s: nat) => cov(s, u), c, (s: nat) => if cov(s, u) then At(v, s) else 0.0);
      RealMulDiv(Received(S, cov, mask, v, u), CoveredTotal(S, cov, v, u), c, mask[u] as real);
    }
  }
}

=== FILE: sums.dfy ===
/** Finite sums of real-valued functions over 0..n-1, and the algebra the adjointness proofs need. */
module Sums {

  /** Sum of f(0) + ... + f(n-1), accumulated in increasing order. */
  function Sum(n: nat, f: nat -> real): real
  {
    if n == 0 then 0.0 else Sum(n - 1, f) + f(n - 1)
  }

  /** Total element access: 0.0 outside the sequence. */
  function At(x: seq<real>, i: nat): real
  {
    if i < |x| then x[i] else 0.0
  }

  /** Inner product of two equally long vectors. */
  function Dot(x: seq<real>, y: seq<real>): real
  {
    Sum(|x|, (i: nat) => At(x, i) * At(y, i))
  }

  /** Vector of n zeros. */
  function Zeros(n: nat): (z: seq<real>)
    ensures |z| == n
    ensures forall i :: 0 <= i < n ==> z[i] == 0.0
  {
    seq(n, _ => 0.0)
  }

  lemma {:induction false} SumExt(n: nat, f: nat -> real, g: nat -> real)
    requires forall i :: 0 <= i < n ==> f(i) == g(i)
    ensures Sum(n, f) == Sum(n, g)
  {
    if n > 0 {
      SumExt(n - 1, f, g);
    }
  }

  lemma {:induction false} SumZero(n: nat, f: nat -> real)
    requires forall i :: 0 <= i < n ==> f(i) == 0.0
    ensures Sum(n, f) == 0.0
  {
    if n > 0 {
      SumZero(n - 1, f);
    }
  }

  /** A sum with exactly one possibly non-zero term equals that term. */
  lemma {:induction false} SumSingle(n: nat, f: nat -> real, k: nat)
    requires k < n
    requires forall i :: 0 <= i < n && i != k ==> f(i) == 0.0
    ensures Sum(n, f) == f(k)
  {
    if n - 1 == k {
      SumZero(n - 1, f);
    } else {
      SumSingle(n - 1, f, k);
    }
  }

  lemma {:induction false} SumAdd(n: nat, f: nat -> real, g: nat -> real, h: nat -> real)
    requires forall i :: 0 <= i < n ==> h(i) == f(i) + g(i)
    ensures Sum(n, h) == Sum(n, f) + Sum(n, g)
  {
    if n > 0 {
      SumAdd(n - 1, f, g, h);
    }
  }

  lemma {:induction false} SumScale(n: nat, c: real, f: nat -> real, g: nat -> real)
    requires forall i :: 0 <= i < n ==> g(i) == c * f(i)
    ensures Sum(n, g) == c * Sum(n, f)
  {
    if n > 0 {
      SumScale(n - 1, c, f, g);
    }
  }

  /** Summing an indicator with constant value v counts the indices where it holds. */
  lemma {:induction false} SumIndicator(n: nat, p: nat -> bool, v: real, f: nat -> real)
    requires forall i :: 0 <= i < n ==> f(i) == (if p(i) then v else 0.0)
    ensures Sum(n, f) == v * (Count(n, p) as real)
  {
    if n > 0 {
      SumIndicator(n - 1, p, v, f);
    }
  }

  /** Dividing every term by the same non-zero m divides the sum by m. */
  lemma SumDivide(n: nat, m: real, f: nat -> real, g: nat -> real)
    requires m != 0.0
    requires forall i :: 0 <= i < n ==> g(i) == f(i) / m
    ensures Sum(n, g) == Sum(n, f) / m
  {
    forall i | 0 <= i < n
      ensures g(i) == (1.0 / m) * f(i)
    {
    }
    SumScale(n, 1.0 / m, f, g);
  }

  /** A sum of n equal terms is n times the term. */
  lemma {:induction false} SumConstant(n: nat, v: real, f: nat -> real)
    requires forall i :: 0 <= i < n ==> f(i) == v
    ensures Sum(n, f) == v * (n as real)
  {
    if n > 0 {
      SumConstant(n - 1, v, f);
    }
  }

  /** n equal shares of c add up to c. */
  lemma SumOfShares(n: nat, c: real, f: nat -> real)
    requires n >= 1
    requires forall i :: 0 <= i < n ==> f(i) == c / (n as real)
    ensures Sum(n, f) == c
  {
    SumConstant(n, c / (n as real), f);
  }

  /** Number of i in 0..n-1 with p(i). */
  function Count(n: nat, p: nat -> bool): nat
  {
    if n == 0 then 0 else Count(n - 1, p) + (if p(n - 1) then 1 else 0)
  }

  lemma {:induction false} CountExt(n: nat, p: nat -> bool, q: nat -> bool)
    requires forall i :: 0 <= i < n ==> p(i) == q(i)
    ensures Count(n, p) == Count(n, q)
  {
    if n > 0 {
      CountExt(n - 1, p, q);
    }
  }

  /** One witness below n makes the count positive. */
  lemma {:induction false} CountWitness(n: nat, p: nat -> bool, k: nat)
    requires k < n && p(k)
    ensures Count(n, p) >= 1
  {
    if k < n - 1 {
      CountWitness(n - 1, p, k);
    }
  }

  /** Exchanging the order of a finite double sum. */
  lemma {:induction false} SumSwap(m: nat, n: nat, g: (nat, nat) -> real)
    ensures Sum(m, (i: nat) => Sum(n, (j: nat) => g(i, j))) == Sum(n, (j: nat) => Sum(m, (i: nat) => g(i, j)))
  {
    if m > 0 {
      var rows := (i: nat) => Sum(n, (j: nat) => g(i, j));
      var cols := (j: nat) => Sum(m, (i: nat) => g(i, j));
      var colsBefore := (j: nat) => Sum(m - 1, (i: nat) => g(i, j));
      var last := (j: nat) => g(m - 1, j);
      SumSwap(m - 1, n, g);
      assert Sum(m - 1, rows) == Sum(n, colsBefore);
      SumAdd(n, colsBefore, last, cols);
      assert Sum(m, rows) == Sum(m - 1, rows) + Sum(n, last);
    } else {
      SumZero(n, (j: nat) => Sum(m, (i: nat) => g(i, j)));
    }
  }

  /** SumSwap for sums whose rows and columns are given by named functions. */
  lemma SumSwapExt(m: nat, n: nat, g: (nat, nat) -> real, rows: nat -> real, cols: nat -> real)
    requires forall i :: 0 <= i < m ==> rows(i) == Sum(n, (j: nat) => g(i, j))
    requires forall j :: 0 <= j < n ==> cols(j) == Sum(m, (i: nat) => g(i, j))
    ensures Sum(m, rows) == Sum(n, cols)
  {
    SumSwap(m, n, g);
    SumExt(m, rows, (i: nat) => Sum(n, (j: nat) => g(i, j)));
    SumExt(n, cols, (j: nat) => Sum(m, (i: nat) => g(i, j)));
  }

  /** The inner product is additive in its first argument. */
  lemma DotAddLeft(a: seq<real>, b: seq<real>, c: seq<real>, y: seq<real>)
    requires |a| == |b| == |c|
    requires forall i :: 0 <= i < |a| ==> a[i] == b[i] + c[i]
    ensures Dot(a, y) == Dot(b, y) + Dot(c, y)
  {
    SumAdd(|a|, (i: nat) => At(b, i) * At(y, i), (i: nat) => At(c, i) * At(y, i), (i: nat) => At(a, i) * At(y, i));
  }

  /** The inner product is additive in its second argument. */
  lemma DotAddRight(x: seq<real>, a: seq<real>, b: seq<real>, c: seq<real>)
    requires |a| == |b| == |c| == |x|
    requires forall i :: 0 <= i < |a| ==> a[i] == b[i] + c[i]
    ensures Dot(x, a) == Dot(x, b) + Dot(x, c)
  {
    SumAdd(|x|, (i: nat) => At(x, i) * At(b, i), (i: nat) => At(x, i) * At(c, i), (i: nat) => At(x, i) * At(a, i));
  }

  /** Element-wise sum of parts(0), ..., parts(k - 1), each of length n, starting from zeros. */
  function Accumulate(n: nat, parts: nat -> seq<real>, k: nat): (r: seq<real>)
    ensures |r| == n
  {
    if k == 0 then Zeros(n) else
      var prev := Accumulate(n, parts, k - 1);
      seq(n, (u: nat) => At(prev, u) + At(parts(k - 1), u))
  }

  /** Each cell of an accumulation is the sum of that cell over the parts. */
  lemma {:induction false} AccumulateAt(n: nat, parts: nat -> seq<real>, k: nat, u: nat)
    requires u < n
    ensures Accumulate(n, parts, k)[u] == Sum(k, (i: nat) => At(parts(i), u))
  {
    if k > 0 {
      AccumulateAt(n, parts, k - 1, u);
    }
  }

  /** Accumulations of parts that agree below k agree. */
  lemma {:induction false} AccumulateExt(n: nat, p: nat -> seq<real>, q: nat -> seq<real>, k: nat)
    requires forall i :: 0 <= i < k ==> p(i) == q(i)
    ensures Accumulate(n, p, k) == Accumulate(n, q, k)
  {
    if k > 0 {
      AccumulateExt(n, p, q, k - 1);
    }
  }

  /** If every part of p is adjoint to the same part of q, so are the accumulations. */
  lemma {:induction false} AccumulateAdjoint(n: nat, p: nat -> seq<real>, q: nat -> seq<real>, x: seq<real>, y: seq<real>, k: nat)
    requires |x| == n && |y| == n
    requires forall i :: 0 <= i < k ==> |p(i)| == n && |q(i)| == n && Dot(p(i), y) == Dot(x, q(i))
    ensures Dot(Accumulate(n, p, k), y) == Dot(x, Accumulate(n, q, k))
  {
    if k == 0 {
      SumZero(n, (i: nat) => At(Zeros(n), i) * At(y, i));
      SumZero(n, (i: nat) => At(x, i) * At(Zeros(n), i));
    } else {
      AccumulateAdjoint(n, p, q, x, y, k - 1);
      DotAddLeft(Accumulate(n, p, k), Accumulate(n, p, k - 1), p(k - 1), y);
      DotAddRight(x, Accumulate(n, q, k), Accumulate(n, q, k - 1), q(k - 1));
    }
  }

  /** Dividing by m is multiplying by 1 / m. */
  lemma RealDivAsMul(a: real, m: real)
    requires m != 0.0
    ensures (1.0 / m) * a == a / m
  {
  }
}

=== FILE: unpool_config.dfy ===
/**
 * Configuration of the unpooling layer: the four methods, the parameter
 * block with its mutually exclusive symmetric / per-axis forms, and the
 * resolution of kernel, stride and pad, either from the parameters or
 * automatically from the spatial size of a second input.
 */
module UnpoolConfig {
  import opened Wrappers
  import opened Blob

  datatype Method = Fixed | Div | Rep | Group

  /**
   * The parameter block. A None field is an optional field that was not set;
   * a Some field was set explicitly (possibly to its default value).
   */
  datatype UnpoolParam = UnpoolParam(
    unpool: Method,
    kernelSize: Option<nat>, kernelH: Option<nat>, kernelW: Option<nat>,
    stride: Option<nat>, strideH: Option<nat>, strideW: Option<nat>,
    pad: Option<nat>, padH: Option<nat>, padW: Option<nat>)

  /** Kernel, stride and pad along one spatial axis. */
  datatype Axis = Axis(kernel: nat, stride: nat, pad: nat)

  datatype Geometry = Geometry(h: Axis, w: Axis)

  datatype ConfigError =
    | GroupNeedsTwoInputs
    | GroupShapeMismatch
    | KernelFormConflict
    | KernelMissing
    | PadFormConflict
    | StrideFormConflict
    | KernelNotPositive
    | PadNotBelowKernel

  /** Values an unset stride or pad field reads as. */
  const DefaultStride: nat := 1
  const DefaultPad: nat := 0

  /** GROUP works on the input grid itself: unit kernel and stride, no pad. */
  const UnitAxis := Axis(1, 1, 0)

  /** Exactly one of out_kernel_size and the (out_kernel_h, out_kernel_w) pair is given. */
  predicate KernelFormOk(p: UnpoolParam)
  {
    p.kernelSize.Some? != (p.kernelH.Some? && p.kernelW.Some?)
  }

  /** Either the full per-axis pad pair without out_pad, or no per-axis pad at all. */
  predicate PadFormOk(p: UnpoolParam)
  {
    (p.pad.None? && p.padH.Some? && p.padW.Some?) || (p.padH.None? && p.padW.None?)
  }

  /** Either the full per-axis stride pair without out_stride, or no per-axis stride at all. */
  predicate StrideFormOk(p: UnpoolParam)
  {
    (p.stride.None? && p.strideH.Some? && p.strideW.Some?) || (p.strideH.None? && p.strideW.None?)
  }

  predicate FormsOk(p: UnpoolParam)
  {
    KernelFormOk(p) && PadFormOk(p) && StrideFormOk(p)
  }

  /** GROUP needs a label input whose num, height and width match the data input. */
  predicate GroupInputsOk(bottom: Shape, second: Option<Shape>)
  {
    second.Some?
    && second.value.width == bottom.width
    && second.value.height == bottom.height
    && second.value.num == bottom.num
  }

  /** The explicitly configured geometry (out_kernel_size wins over the per-axis pair). */
  function Configured(p: UnpoolParam): Geometry
    requires FormsOk(p)
  {
    var kh := if p.kernelSize.Some? then p.kernelSize.value else p.kernelH.value;
    var kw := if p.kernelSize.Some? then p.kernelSize.value else p.kernelW.value;
    var sh := if p.strideH.None? then p.stride.GetOr(DefaultStride) else p.strideH.value;
    var sw := if p.strideH.None? then p.stride.GetOr(DefaultStride) else p.strideW.value;
    var ph := if p.padH.None? then p.pad.GetOr(DefaultPad) else p.padH.value;
    var pw := if p.padH.None? then p.pad.GetOr(DefaultPad) else p.padW.value;
    Geometry(Axis(kh, sh, ph), Axis(kw, sw, pw))
  }

  /** Integer ceiling of a / b, standing for the source's float ceil. */
  function CeilDiv(a: nat, b: nat): (q: nat)
    requires b > 0
    ensures q * b >= a
    ensures q == 0 || (q - 1) * b < a
  {
    var q := (a + b - 1) / b;
    assert q * b > a - b by {
      assert (a + b - 1) == q * b + (a + b - 1) % b;
    }
    q
  }

  /** Destination extent of one axis: (src - 1) * stride - 2 * pad + kernel. */
  function OutSize(src: nat, a: Axis): int
  {
    (src - 1) * a.stride - 2 * a.pad + a.kernel
  }

  /** The slack (src - 1) * stride + kernel - target that auto-sizing halves into the pad. */
  function Overshoot(src: nat, target: nat, kernel: nat, stride: nat): int
  {
    (src - 1) * stride + kernel - target
  }

  /**
   * Auto-sizing of one axis from the source extent src to the target extent:
   * kernel = stride = ceil(target / src), stride collapsed to 1 when it equals
   * the target, and pad = floor(overshoot / 2).
   */
  function AutoAxis(src: nat, target: nat): (a: Axis)
    requires src >= 1
    ensures a.kernel * src >= target && (a.kernel == 0 || (a.kernel - 1) * src < target)
    ensures a.stride == if a.kernel == target then 1 else a.kernel
    ensures 2 * a.pad <= Overshoot(src, target, a.kernel, a.stride) < 2 * a.pad + 2
  {
    var k := CeilDiv(target, src);
    var s := if k == target then 1 else k;
    var e := Overshoot(src, target, k, s);
    assert e >= 0 by {
      if k != target {
        assert e == src * k - target;
      }
    }
    Axis(k, s, e / 2)
  }

  /** The pad check shared by both modes: any non-zero pad must lie below the kernel on both axes. */
  predicate PadBelowKernel(g: Geometry)
  {
    (g.h.pad == 0 && g.w.pad == 0) || (g.h.pad < g.h.kernel && g.w.pad < g.w.kernel)
  }

  /**
   * The geometry the pad check is applied to outside GROUP: the configured
   * one, or the one auto-sized towards the second input.
   */
  function Candidate(p: UnpoolParam, bottom: Shape, second: Option<Shape>): Geometry
    requires FormsOk(p) && (second.Some? ==> bottom.height >= 1 && bottom.width >= 1)
  {
    if second.None? then Configured(p)
    else Geometry(AutoAxis(bottom.height, second.value.height), AutoAxis(bottom.width, second.value.width))
  }

  /**
   * What auto-sizing needs: it divides by the data input's extents, and a
   * target extent of 0 would give a kernel of 0.
   */
  predicate AutoSizable(p: UnpoolParam, bottom: Shape, second: Option<Shape>)
  {
    p.unpool != Group && second.Some? ==>
      && bottom.height >= 1 && bottom.width >= 1
      && second.value.height >= 1 && second.value.width >= 1
  }

  /**
   * Resolve the geometry for a data input of shape bottom and an optional
   * second input (GROUP labels, or the auto-sizing target). Only auto-sizing
   * divides by the data input's extents.
   */
  function Resolve(p: UnpoolParam, bottom: Shape, second: Option<Shape>): (r: Result<Geometry, ConfigError>)
    requires p.unpool != Group && second.Some? ==> bottom.height >= 1 && bottom.width >= 1
    ensures p.unpool == Group ==> (r.Success? <==> GroupInputsOk(bottom, second))
    ensures p.unpool == Group && r.Success? ==> r.value == Geometry(UnitAxis, UnitAxis)
    ensures p.unpool != Group && r.Success? ==>
      FormsOk(p) && PadBelowKernel(r.value)
      && (second.None? ==> r.value == Configured(p) && r.value.h.kernel > 0 && r.value.w.kernel > 0)
      && (second.Some? ==> r.value == Geometry(AutoAxis(bottom.height, second.value.height),
                                               AutoAxis(bottom.width, second.value.width)))
    ensures p.unpool != Group && !KernelFormOk(p) ==> r == Failure(KernelFormConflict)
    ensures p.unpool != Group && KernelFormOk(p) && !PadFormOk(p) ==> r == Failure(PadFormConflict)
    ensures p.unpool != Group && KernelFormOk(p) && PadFormOk(p) && !StrideFormOk(p) ==> r == Failure(StrideFormConflict)
    ensures (p.unpool != Group && FormsOk(p) && second.None?
             && (Configured(p).h.kernel == 0 || Configured(p).w.kernel == 0)) ==> r == Failure(KernelNotPositive)
    ensures (p.unpool != Group && FormsOk(p)
             && (second.None? ==> Configured(p).h.kernel > 0 && Configured(p).w.kernel > 0)) ==>
      && (PadBelowKernel(Candidate(p, bottom, second)) ==> r == Success(Candidate(p, bottom, second)))
      && (!PadBelowKernel(Candidate(p, bottom, second)) ==> r == Failure(PadNotBelowKernel))
  {
    if p.unpool == Group then
      if second.None? then Failure(GroupNeedsTwoInputs)
      else if !GroupInputsOk(bottom, second) then Failure(GroupShapeMismatch)
      else Success(Geometry(UnitAxis, UnitAxis))
    else if !KernelFormOk(p) then Failure(KernelFormConflict)
    else if !(p.kernelSize.Some? || (p.kernelH.Some? && p.kernelW.Some?)) then Failure(KernelMissing)
    else if !PadFormOk(p) then Failure(PadFormConflict)
    else if !StrideFormOk(p) then Failure(StrideFormConflict)
    else
      var g :- if second.None? then
          var c := Configured(p);
          if c.h.kernel <= 0 || c.w.kernel <= 0 then Failure(KernelNotPositive) else Success(c)
        else
          Success(Geometry(AutoAxis(bottom.height, second.value.height), AutoAxis(bottom.width, second.value.width)));
      if (g.h.pad != 0 || g.w.pad != 0) && !(g.h.pad < g.h.kernel && g.w.pad < g.w.kernel) then
        Failure(PadNotBelowKernel)
      else
        Success(g)
  }

  /**
   * Auto-sizing onto an empty target axis: the kernel is 0, the stride 1 and
   * the pad half the source extent less one. From a source extent of 3 on,
   * that pad is not below the 0 kernel and setup fails; below it the
   * unpooled extent is the source extent less one.
   */
  lemma ZeroTargetAxis(src: nat)
    requires src >= 1
    ensures AutoAxis(src, 0) == Axis(0, 1, (src - 1) / 2)
    ensures src >= 3 ==> AutoAxis(src, 0).pad >= 1
    ensures src <= 2 ==> AutoAxis(src, 0).pad == 0 && OutSize(src, AutoAxis(src, 0)) == src - 1
  {
    assert CeilDiv(0, src) == 0;
  }

  /** A target with no rows under a data input of three or more rows fails the pad check. */
  lemma ZeroTargetHeightRejected(p: UnpoolParam, bottom: Shape, second: Option<Shape>)
    requires p.unpool != Group && FormsOk(p) && second.Some? && second.value.height == 0
    requires bottom.height >= 3 && bottom.width >= 1
    ensures Resolve(p, bottom, second) == Failure(PadNotBelowKernel)
  {
    ZeroTargetAxis(bottom.height);
    assert !PadBelowKernel(Candidate(p, bottom, second));
  }

  /**
   * Auto-sizing reproduces the target extent when the overshoot is even and
   * overshoots it by exactly one when the overshoot is odd.
   */
  lemma AutoSizeHitsTarget(src: nat, target: nat)
    requires src >= 1
    ensures var a := AutoAxis(src, target);
      OutSize(src, a) == target + Overshoot(src, target, a.kernel, a.stride) % 2
    ensures var a := AutoAxis(src, target);
      OutSize(src, a) == target <==> Overshoot(src, target, a.kernel, a.stride) % 2 == 0
    ensures var a := AutoAxis(src, target);
      target <= OutSize(src, a) <= target + 1
  {
  }

  /**
   * With a second input present, the configured kernel, stride and pad
   * values play no part: any two parameter blocks that pass the form checks
   * resolve to the same geometry.
   */
  lemma AutoIgnoresConfiguredValues(p: UnpoolParam, q: UnpoolParam, bottom: Shape, target: Shape)
    requires bottom.height >= 1 && bottom.width >= 1
    requires p.unpool != Group && q.unpool != Group
    requires FormsOk(p) && FormsOk(q)
    ensures Resolve(p, bottom, Some(target)) == Resolve(q, bottom, Some(target))
  {
  }

  /** A 3 x 2 input auto-sized towards a 7 x 5 target comes out 7 x 6, one column wider than the target. */
  lemma AutoSizeOddOvershootExample()
    ensures AutoAxis(3, 7) == Axis(3, 3, 1) && OutSize(3, AutoAxis(3, 7)) == 7
    ensures AutoAxis(2, 5) == Axis(3, 3, 0) && OutSize(2, AutoAxis(2, 5)) == 6
  {
  }
}

=== FILE: unpool_grid.dfy ===
/**
 * Source and destination grids of the geometric unpooling methods (FIXED,
 * DIV, REP): flat row-major indexing, the receptive window of a source cell
 * in destination coordinates, and the window midpoint used by FIXED.
 */
module UnpoolGrid {
  import opened UnpoolConfig
  import opened RowMajor

  /**
   * Source extent height x width and the geometry relating it to the
   * destination grid. Cells are numbered row-major: h * width + w.
   */
  datatype Plan = Plan(height: nat, width: nat, geo: Geometry)

  /**
   * Both kernels are positive and each destination extent given by the
   * unpooling size rule is not negative, and non-empty over a non-empty
   * source axis, as a successful setup guarantees.
   */
  predicate ValidPlan(p: Plan)
  {
    && p.geo.h.kernel >= 1 && p.geo.w.kernel >= 1
    && OutSize(p.height, p.geo.h) >= 0 && (p.height >= 1 ==> OutSize(p.height, p.geo.h) >= 1)
    && OutSize(p.width, p.geo.w) >= 0 && (p.width >= 1 ==> OutSize(p.width, p.geo.w) >= 1)
  }

  /** Destination rows: (height - 1) * stride - 2 * pad + kernel, read as 0 below 0. */
  function OutHeight(p: Plan): nat
  {
    var o := OutSize(p.height, p.geo.h);
    if o >= 0 then o else 0
  }

  /** Destination columns, by the same rule. */
  function OutWidth(p: Plan): nat
  {
    var o := OutSize(p.width, p.geo.w);
    if o >= 0 then o else 0
  }

  function SrcCount(p: Plan): nat
  {
    p.height * p.width
  }

  function DstCount(p: Plan): nat
  {
    OutHeight(p) * OutWidth(p)
  }

  /** First destination coordinate of the window of source coordinate i. */
  function WindowStart(a: Axis, i: nat): int
  {
    i * a.stride - a.pad
  }

  /** First destination coordinate of the window clipped to the grid. */
  function ClipLo(a: Axis, i: nat): int
  {
    if WindowStart(a, i) < 0 then 0 else WindowStart(a, i)
  }

  /** One past the last destination coordinate of the window clipped to the grid. */
  function ClipHi(a: Axis, out: nat, i: nat): int
  {
    if WindowStart(a, i) + a.kernel < out then WindowStart(a, i) + a.kernel else out
  }

  predicate AxisCovers(a: Axis, out: nat, i: nat, ui: nat)
  {
    ClipLo(a, i) <= ui < ClipHi(a, out, i)
  }

  /** Destination cell u lies in the clipped window of source cell s. */
  predicate Covers(p: Plan, s: nat, u: nat)
  {
    && s < SrcCount(p) && u < DstCount(p)
    && p.width > 0 && OutWidth(p) > 0
    && AxisCovers(p.geo.h, OutHeight(p), s / p.width, u / OutWidth(p))
    && AxisCovers(p.geo.w, OutWidth(p), s % p.width, u % OutWidth(p))
  }

  /** Integer division by 2 rounding toward zero, as C++ int division does. */
  function TruncDiv2(a: int): int
  {
    if a >= 0 then a / 2 else -((-a) / 2)
  }

  function Clamp(v: int, lo: int, hi: int): int
  {
    if v < lo then lo else if v > hi then hi else v
  }

  /** The FIXED midpoint of the window of source coordinate i, clamped into the destination. */
  function Midpoint(a: Axis, out: nat, i: nat): (m: nat)
    requires out >= 1
    ensures m < out
  {
    var start := WindowStart(a, i);
    var end := start + a.kernel;
    Clamp(TruncDiv2(start + end - 1), 0, out - 1)
  }

  /** The destination cell FIXED assigns to source cell s. */
  function Target(p: Plan, s: nat): (u: nat)
    requires ValidPlan(p) && s < SrcCount(p)
    ensures u < DstCount(p)
  {
    FlatBounds(s, p.height, p.width);
    var mh := Midpoint(p.geo.h, OutHeight(p), s / p.width);
    var mw := Midpoint(p.geo.w, OutWidth(p), s % p.width);
    FlatIndex(mh, mw, OutHeight(p), OutWidth(p));
    mh * OutWidth(p) + mw
  }
}

=== FILE: unpooling_layer.dfy ===
/**
 * The unpooling layer as a whole: setup and reshape (geometry, output
 * shape, GROUP member maps), the mask it fills, and the forward and
 * backward passes over a num x channels blob, which apply the method's
 * slice pass to every (n, c) slice with the same mask. A blob is held as
 * its slices: blob[n][c] is the row-major height x width slice (n, c).
 */
module UnpoolingLayer {
  import opened Wrappers
  import opened Blob
  import opened Sums
  import opened UnpoolConfig
  import opened UnpoolGrid
  import Spreading
  import Overwriting
  import FixedUnpool
  import OverlapUnpool
  import GroupUnpool

  /** A blob of num x channels slices of area cells each. */
  predicate Shaped<T>(blob: seq<seq<seq<T>>>, num: nat, channels: nat, area: nat)
  {
    |blob| == num && forall n :: 0 <= n < num ==> SampleShaped(blob[n], channels, area)
  }

  /** One sample of such a blob: channels slices of area cells each. */
  predicate SampleShaped<T>(xn: seq<seq<T>>, channels: nat, area: nat)
  {
    |xn| == channels && forall c :: 0 <= c < channels ==> |xn[c]| == area
  }

  datatype LayerError =
    | BadConfig(reason: ConfigError)
      /** The configured geometry gives an unpooled extent below one. */
    | EmptyOutput

  /**
   * The layer after Reshape: the method, the data input's num and channels,
   * the plan relating the input grid to the unpooled grid, the filled mask
   * and, for GROUP, the number of label channels and one grouping per
   * (n, label channel).
   */
  datatype Layer = Layer(
    unpool: Method, num: nat, channels: nat, plan: Plan,
    groupChannels: nat, mask: seq<int>, groups: seq<seq<GroupUnpool.Grouping>>)

  /**
   * The mask FillMask leaves behind. FIXED: for every unpooled cell, the
   * last source index whose midpoint it is, or -1. DIV and REP: for every
   * unpooled cell, the number of source windows covering it. GROUP: the
   * number of label channels everywhere.
   */
  function FillMask(m: Method, p: Plan, groupChannels: nat): (mask: seq<int>)
    requires ValidPlan(p)
    ensures |mask| == DstCount(p)
    ensures m == Fixed ==> forall u :: 0 <= u < |mask| ==>
      (mask[u] == Overwriting.NoSource <==> forall s :: 0 <= s < SrcCount(p) ==> Target(p, s) != u)
    ensures m == Fixed ==> forall u :: 0 <= u < |mask| && mask[u] != Overwriting.NoSource ==>
      0 <= mask[u] < SrcCount(p) && Target(p, mask[u]) == u
      && forall t :: mask[u] < t < SrcCount(p) ==> Target(p, t) != u
    ensures (m == Div || m == Rep) ==>
      Spreading.Counts(SrcCount(p), DstCount(p), OverlapUnpool.Window(p), mask)
      && Spreading.Cover(SrcCount(p), DstCount(p), OverlapUnpool.Window(p), mask)
    ensures m == Group ==> forall u :: 0 <= u < |mask| ==> mask[u] == groupChannels
  {
    match m
    case Fixed => FixedUnpool.FixedMask(p)
    case Div => OverlapUnpool.CoverMask(p)
    case Rep => OverlapUnpool.CoverMask(p)
    case Group => seq(DstCount(p), _ => groupChannels as int)
  }

  /** What Reshape establishes and the passes rely on. */
  predicate Valid(l: Layer)
  {
    && ValidPlan(l.plan)
    && l.mask == FillMask(l.unpool, l.plan, l.groupChannels)
    && (l.unpool == Group ==>
          && l.plan.geo == Geometry(UnitAxis, UnitAxis)
          && |l.groups| == l.num
          && forall n :: 0 <= n < l.num ==>
               |l.groups[n]| == l.groupChannels && GroupUnpool.Groupings(l.groups[n], SrcCount(l.plan)))
  }

  // ---------------------------------------------------------------------
  // Setup and reshape

  /** A resolved geometry has positive kernels when every input has a non-empty grid. */
  lemma ResolvedKernels(p: UnpoolParam, bottom: Shape, second: Option<Shape>)
    requires AutoSizable(p, bottom, second)
    requires Resolve(p, bottom, second).Success?
    ensures Resolve(p, bottom, second).value.h.kernel >= 1
    ensures Resolve(p, bottom, second).value.w.kernel >= 1
  {
    if p.unpool != Group && second.Some? {
      var a := AutoAxis(bottom.height, second.value.height);
      var b := AutoAxis(bottom.width, second.value.width);
      assert a.kernel * bottom.height >= 1 && b.kernel * bottom.width >= 1;
    }
  }

  /** Auto-sized extents land on the target or one past it. */
  lemma AutoExtents(p: UnpoolParam, bottom: Shape, second: Option<Shape>)
    requires AutoSizable(p, bottom, second)
    ensures p.unpool != Group && second.Some? ==>
      && second.value.height <= OutSize(bottom.height, AutoAxis(bottom.height, second.value.height)) <= second.value.height + 1
      && second.value.width <= OutSize(bottom.width, AutoAxis(bottom.width, second.value.width)) <= second.value.width + 1
  {
    if p.unpool != Group && second.Some? {
      AutoSizeHitsTarget(bottom.height, second.value.height);
      AutoSizeHitsTarget(bottom.width, second.value.width);
    }
  }

  /** Relabels every label channel of one sample's label input. */
  method GroupRow(groupChannels: nat, area: nat, labels: seq<seq<int>>) returns (row: seq<GroupUnpool.Grouping>)
    requires SampleShaped(labels, groupChannels, area)
    ensures |row| == groupChannels && GroupUnpool.Groupings(row, area)
    ensures forall gc :: 0 <= gc < groupChannels ==>
      GroupUnpool.Relabelling(labels[gc], row[gc].ids, row[gc].groups)
  {
    row := [];
    for gc := 0 to groupChannels
      invariant |row| == gc
      invariant forall j :: 0 <= j < gc ==> GroupUnpool.Relabelling(labels[j], row[j].ids, row[j].groups)
      invariant forall j :: 0 <= j < gc ==> GroupUnpool.WellFormed(row[j], area)
    {
      var ids, groups := GroupUnpool.Relabel(labels[gc]);
      GroupUnpool.RelabellingWellFormed(labels[gc], ids, groups);
      row := row + [GroupUnpool.Grouping(ids, groups)];
    }
  }

  /** Relabels every (n, label channel) slice of the label blob. */
  method GroupMaps(num: nat, groupChannels: nat, area: nat, labels: seq<seq<seq<int>>>)
    returns (gs: seq<seq<GroupUnpool.Grouping>>)
    requires Shaped(labels, num, groupChannels, area)
    ensures |gs| == num
    ensures forall n :: 0 <= n < num ==> |gs[n]| == groupChannels && GroupUnpool.Groupings(gs[n], area)
    ensures forall n, gc :: 0 <= n < num && 0 <= gc < groupChannels ==>
      GroupUnpool.Relabelling(labels[n][gc], gs[n][gc].ids, gs[n][gc].groups)
  {
    gs := [];
    for n := 0 to num
      invariant |gs| == n
      invariant forall i :: 0 <= i < n ==> |gs[i]| == groupChannels && GroupUnpool.Groupings(gs[i], area)
      invariant forall i, gc :: 0 <= i < n && 0 <= gc < groupChannels ==>
        GroupUnpool.Relabelling(labels[i][gc], gs[i][gc].ids, gs[i][gc].groups)
    {
      var row := GroupRow(groupChannels, area, labels[n]);
      gs := gs + [row];
    }
  }

  /**
   * The grids of Reshape: the resolved geometry and the unpooled extents
   * (the input grid itself for GROUP, empty or not), the configuration
   * error, or EmptyOutput when an unpooled extent of another method comes
   * out below one.
   */
  function PlanFor(p: UnpoolParam, bottom: Shape, second: Option<Shape>): (r: Result<Plan, LayerError>)
    requires AutoSizable(p, bottom, second)
    ensures Resolve(p, bottom, second).Failure? ==> r == Failure(BadConfig(Resolve(p, bottom, second).error))
    ensures Resolve(p, bottom, second).Success? ==>
      (r.Success? <==> || p.unpool == Group
                       || (&& OutSize(bottom.height, Resolve(p, bottom, second).value.h) >= 1
                           && OutSize(bottom.width, Resolve(p, bottom, second).value.w) >= 1))
    ensures (Resolve(p, bottom, second).Success? && (p.unpool == Group || second.Some?)) ==> r.Success?
    ensures r.Success? ==>
      && ValidPlan(r.value)
      && r.value.height == bottom.height && r.value.width == bottom.width
      && r.value.geo == Resolve(p, bottom, second).value
    ensures r.Success? && p.unpool == Group ==>
      OutHeight(r.value) == bottom.height && OutWidth(r.value) == bottom.width
    ensures r.Success? && p.unpool != Group && second.Some? ==>
      && second.value.height <= OutHeight(r.value) <= second.value.height + 1
      && second.value.width <= OutWidth(r.value) <= second.value.width + 1
  {
    var resolved := Resolve(p, bottom, second);
    if resolved.Failure? then Failure(BadConfig(resolved.error))
    else
      var geo := resolved.value;
      ResolvedKernels(p, bottom, second);
      AutoExtents(p, bottom, second);
      var outHeight := OutSize(bottom.height, geo.h);
      var outWidth := OutSize(bottom.width, geo.w);
      if p.unpool == Group then
        assert geo == Geometry(UnitAxis, UnitAxis);
        assert outHeight == bottom.height && outWidth == bottom.width;
        Success(Plan(bottom.height, bottom.width, geo))
      else if outHeight < 1 || outWidth < 1 then Failure(EmptyOutput)
      else Success(Plan(bottom.height, bottom.width, geo))
  }

  /** The unit tests' input shape: 2 samples of 3 channels, 3 x 2 each. */
  const TestInput := Shape(2, 3, 3, 2)

  /** A configured kernel of 3 on the test input is accepted, with a 5 x 4 output. */
  lemma KernelSetupAccepted()
    ensures var p := UnpoolParam(Fixed, Some(3), None, None, None, None, None, None, None, None);
      var r := PlanFor(p, TestInput, None);
      r.Success? && OutHeight(r.value) == 5 && OutWidth(r.value) == 4
  {
    var p := UnpoolParam(Fixed, Some(3), None, None, None, None, None, None, None, None);
    assert Resolve(p, TestInput, None) == Success(Geometry(Axis(3, 1, 0), Axis(3, 1, 0)));
  }

  /** Kernel 3 with stride 2 on the test input is accepted, with a 7 x 5 output. */
  lemma StridedSetupAccepted()
    ensures var p := UnpoolParam(Fixed, Some(3), None, None, Some(2), None, None, None, None, None);
      var r := PlanFor(p, TestInput, None);
      r.Success? && OutHeight(r.value) == 7 && OutWidth(r.value) == 5
  {
    var p := UnpoolParam(Fixed, Some(3), None, None, Some(2), None, None, None, None, None);
    assert Resolve(p, TestInput, None) == Success(Geometry(Axis(3, 2, 0), Axis(3, 2, 0)));
  }

  /** Kernel 3, stride 2 and pad 1 under DIV on the test input is accepted, with a 5 x 3 output. */
  lemma PaddedSetupAccepted()
    ensures var p := UnpoolParam(Div, Some(3), None, None, Some(2), None, None, Some(1), None, None);
      var r := PlanFor(p, TestInput, None);
      r.Success? && OutHeight(r.value) == 5 && OutWidth(r.value) == 3
  {
    var p := UnpoolParam(Div, Some(3), None, None, Some(2), None, None, Some(1), None, None);
    assert Resolve(p, TestInput, None) == Success(Geometry(Axis(3, 2, 1), Axis(3, 2, 1)));
  }

  /** An explicit kernel 3 accepts an empty 0 x 2 data input; the unpooled grid is 2 x 4. */
  lemma EmptyInputSetupAccepted()
    ensures var p := UnpoolParam(Fixed, Some(3), None, None, None, None, None, None, None, None);
      var r := PlanFor(p, Shape(1, 1, 0, 2), None);
      r.Success? && SrcCount(r.value) == 0 && OutHeight(r.value) == 2 && OutWidth(r.value) == 4
  {
    var p := UnpoolParam(Fixed, Some(3), None, None, None, None, None, None, None, None);
    assert Resolve(p, Shape(1, 1, 0, 2), None) == Success(Geometry(Axis(3, 1, 0), Axis(3, 1, 0)));
  }

  /** GROUP accepts an empty 0 x 2 data input with matching labels; the unpooled grid is the same 0 x 2 grid. */
  lemma EmptyGroupSetupAccepted()
    ensures var p := UnpoolParam(Group, None, None, None, None, None, None, None, None, None);
      var r := PlanFor(p, Shape(1, 1, 0, 2), Some(Shape(1, 2, 0, 2)));
      r.Success? && SrcCount(r.value) == 0 && OutHeight(r.value) == 0 && OutWidth(r.value) == 2
  {
    var p := UnpoolParam(Group, None, None, None, None, None, None, None, None, None);
    assert Resolve(p, Shape(1, 1, 0, 2), Some(Shape(1, 2, 0, 2))) == Success(Geometry(UnitAxis, UnitAxis));
  }

  /**
   * Reshape with the setup it starts with: size the grids, build the GROUP
   * member maps from the label input and fill the mask. labels is the
   * second input's data when there is one.
   */
  method Reshape(p: UnpoolParam, bottom: Shape, second: Option<Shape>, labels: seq<seq<seq<int>>>)
    returns (r: Result<Layer, LayerError>)
    requires AutoSizable(p, bottom, second)
    requires second.Some? ==>
      Shaped(labels, second.value.num, second.value.channels, second.value.height * second.value.width)
    ensures PlanFor(p, bottom, second).Failure? ==> r == Failure(PlanFor(p, bottom, second).error)
    ensures PlanFor(p, bottom, second).Success? ==> r.Success? && r.value.plan == PlanFor(p, bottom, second).value
    ensures r.Success? ==>
      && Valid(r.value)
      && r.value.unpool == p.unpool && r.value.num == bottom.num && r.value.channels == bottom.channels
    ensures r.Success? && p.unpool == Group ==>
      && r.value.groupChannels == second.value.channels
      && forall n, gc :: 0 <= n < bottom.num && 0 <= gc < second.value.channels ==>
           GroupUnpool.Relabelling(labels[n][gc], r.value.groups[n][gc].ids, r.value.groups[n][gc].groups)
  {
    var planned := PlanFor(p, bottom, second);
    if planned.Failure? {
      return Failure(planned.error);
    }
    var plan := planned.value;
    assert ValidPlan(plan) && SrcCount(plan) == bottom.height * bottom.width;
    var groupChannels := 0;
    var groups := [];
    if p.unpool == Group {
      assert plan.geo == Geometry(UnitAxis, UnitAxis);
      groupChannels := second.value.channels;
      groups := GroupMaps(bottom.num, groupChannels, bottom.height * bottom.width, labels);
    }
    var mask := FillMask(p.unpool, plan, groupChannels);
    var l := Layer(p.unpool, bottom.num, bottom.channels, plan, groupChannels, mask, groups);
    assert Valid(l);
    return Success(l);
  }

  // ---------------------------------------------------------------------
  // Slice passes

  /** The mask of a valid layer is the one its method's passes expect. */
  lemma MaskOfMethod(l: Layer)
    requires Valid(l)
    ensures l.unpool == Fixed ==> l.mask == FixedUnpool.FixedMask(l.plan)
    ensures l.unpool == Div || l.unpool == Rep ==> l.mask == OverlapUnpool.CoverMask(l.plan)
  {
  }

  /** The method's forward pass on slice (n, c) of the data blob; GROUP uses sample n's groupings. */
  function SliceForward(l: Layer, n: nat, x: seq<real>): (y: seq<real>)
    requires Valid(l) && n < l.num && |x| == SrcCount(l.plan)
    ensures |y| == DstCount(l.plan)
    ensures l.unpool == Fixed ==> y == FixedUnpool.Forward(l.plan, x)
    ensures l.unpool == Div ==> l.mask == OverlapUnpool.CoverMask(l.plan) && y == OverlapUnpool.DivForward(l.plan, l.mask, x)
    ensures l.unpool == Rep ==> l.mask == OverlapUnpool.CoverMask(l.plan) && y == OverlapUnpool.RepForward(l.plan, l.mask, x)
    ensures l.unpool == Group ==> SrcCount(l.plan) == DstCount(l.plan) && y == GroupUnpool.Forward(l.groups[n], x)
  {
    MaskOfMethod(l);
    match l.unpool
    case Fixed => FixedUnpool.Forward(l.plan, x)
    case Div => OverlapUnpool.DivForward(l.plan, l.mask, x)
    case Rep => OverlapUnpool.RepForward(l.plan, l.mask, x)
    case Group => GroupSliceForward(l, n, x)
  }

  function GroupSliceForward(l: Layer, n: nat, x: seq<real>): (y: seq<real>)
    requires Valid(l) && l.unpool == Group && n < l.num && |x| == SrcCount(l.plan)
    ensures |y| == DstCount(l.plan)
  {
    assert DstCount(l.plan) == SrcCount(l.plan);
    GroupUnpool.Forward(l.groups[n], x)
  }

  /** The method's backward pass on slice (n, c) of the top gradient. */
  function SliceBackward(l: Layer, n: nat, dy: seq<real>): (dx: seq<real>)
    requires Valid(l) && n < l.num && |dy| == DstCount(l.plan)
    ensures |dx| == SrcCount(l.plan)
    ensures l.unpool == Fixed ==> l.mask == FixedUnpool.FixedMask(l.plan) && dx == FixedUnpool.Backward(l.plan, l.mask, dy)
    ensures l.unpool == Div ==> l.mask == OverlapUnpool.CoverMask(l.plan) && dx == OverlapUnpool.DivBackward(l.plan, l.mask, dy)
    ensures l.unpool == Rep ==> l.mask == OverlapUnpool.CoverMask(l.plan) && dx == OverlapUnpool.RepBackward(l.plan, l.mask, dy)
    ensures l.unpool == Group ==> SrcCount(l.plan) == DstCount(l.plan) && dx == GroupUnpool.Backward(l.groups[n], dy)
  {
    MaskOfMethod(l);
    match l.unpool
    case Fixed => FixedUnpool.Backward(l.plan, l.mask, dy)
    case Div => OverlapUnpool.DivBackward(l.plan, l.mask, dy)
    case Rep => OverlapUnpool.RepBackward(l.plan, l.mask, dy)
    case Group => GroupSliceBackward(l, n, dy)
  }

  function GroupSliceBackward(l: Layer, n: nat, dy: seq<real>): (dx: seq<real>)
    requires Valid(l) && l.unpool == Group && n < l.num && |dy| == DstCount(l.plan)
    ensures |dx| == SrcCount(l.plan)
  {
    assert DstCount(l.plan) == SrcCount(l.plan);
    GroupUnpool.Backward(l.groups[n], dy)
  }

  lemma GroupSliceAdjoint(l: Layer, n: nat, x: seq<real>, dy: seq<real>)
    requires Valid(l) && l.unpool == Group && n < l.num && |x| == SrcCount(l.plan) && |dy| == DstCount(l.plan)
    ensures Dot(GroupSliceForward(l, n, x), dy) == Dot(x, GroupSliceBackward(l, n, dy))
  {
    GroupUnpool.GroupAdjoint(l.groups[n], x, dy);
  }

  /** Every method's slice backward pass is the adjoint of its slice forward pass. */
  lemma SliceAdjoint(l: Layer, n: nat, x: seq<real>, dy: seq<real>)
    requires Valid(l) && n < l.num && |x| == SrcCount(l.plan) && |dy| == DstCount(l.plan)
    ensures Dot(SliceForward(l, n, x), dy) == Dot(x, SliceBackward(l, n, dy))
  {
    MaskOfMethod(l);
    match l.unpool
    case Fixed => FixedUnpool.Adjoint(l.plan, x, dy);
    case Div => OverlapUnpool.DivAdjoint(l.plan, l.mask, x, dy);
    case Rep => OverlapUnpool.RepAdjoint(l.plan, l.mask, x, dy);
    case Group => GroupSliceAdjoint(l, n, x, dy);
  }

  /** Forward output for slice c of sample n, given the sample's slices xn; empty outside the blob. */
  function ForwardAt(l: Layer, n: nat, xn: seq<seq<real>>, c: nat): (y: seq<real>)
  {
    if Valid(l) && n < l.num && c < |xn| && |xn[c]| == SrcCount(l.plan) then SliceForward(l, n, xn[c]) else []
  }

  /** Backward output for slice c of sample n, given the sample's top-gradient slices dyn. */
  function BackwardAt(l: Layer, n: nat, dyn: seq<seq<real>>, c: nat): (dx: seq<real>)
  {
    if Valid(l) && n < l.num && c < |dyn| && |dyn[c]| == DstCount(l.plan) then SliceBackward(l, n, dyn[c]) else []
  }

  // The sample and blob passes below are structural liftings of the slice
  // passes to every channel and every sample; what they compute is stated
  // by their partners SampleAdjoint, Adjoint and GroupGradientIsForward.

  /** Forward pass of sample n: each slice through the method's slice pass. */
  function SampleForward(l: Layer, n: nat, xn: seq<seq<real>>): (yn: seq<seq<real>>)
    requires Valid(l) && n < l.num && SampleShaped(xn, l.channels, SrcCount(l.plan))
    ensures SampleShaped(yn, l.channels, DstCount(l.plan))
    ensures forall c :: 0 <= c < l.channels ==> yn[c] == SliceForward(l, n, xn[c])
  {
    seq(l.channels, (c: nat) => ForwardAt(l, n, xn, c))
  }

  /** Backward pass of sample n: each slice of the top gradient through the method's slice pass. */
  function SampleBackward(l: Layer, n: nat, dyn: seq<seq<real>>): (dxn: seq<seq<real>>)
    requires Valid(l) && n < l.num && SampleShaped(dyn, l.channels, DstCount(l.plan))
    ensures SampleShaped(dxn, l.channels, SrcCount(l.plan))
    ensures forall c :: 0 <= c < l.channels ==> dxn[c] == SliceBackward(l, n, dyn[c])
  {
    seq(l.channels, (c: nat) => BackwardAt(l, n, dyn, c))
  }

  /** SampleForward of sample n of x, empty outside the blob. */
  function SampleForwardAt(l: Layer, x: seq<seq<seq<real>>>, n: nat): seq<seq<real>>
  {
    if Valid(l) && n < l.num && n < |x| && SampleShaped(x[n], l.channels, SrcCount(l.plan)) then
      SampleForward(l, n, x[n])
    else []
  }

  /** SampleBackward of sample n of dy, empty outside the blob. */
  function SampleBackwardAt(l: Layer, dy: seq<seq<seq<real>>>, n: nat): seq<seq<real>>
  {
    if Valid(l) && n < l.num && n < |dy| && SampleShaped(dy[n], l.channels, DstCount(l.plan)) then
      SampleBackward(l, n, dy[n])
    else []
  }

  // ---------------------------------------------------------------------
  // Blob passes

  /** Forward pass: every (n, c) slice of the top blob from the same slice of the bottom blob. */
  function Forward(l: Layer, bottom: seq<seq<seq<real>>>): (top: seq<seq<seq<real>>>)
    requires Valid(l) && Shaped(bottom, l.num, l.channels, SrcCount(l.plan))
    ensures Shaped(top, l.num, l.channels, DstCount(l.plan))
    ensures forall n :: 0 <= n < l.num ==> top[n] == SampleForward(l, n, bottom[n])
  {
    seq(l.num, (n: nat) => SampleForwardAt(l, bottom, n))
  }

  /** The gradient the backward pass writes: every slice from the same slice of the top gradient. */
  function Gradient(l: Layer, topDiff: seq<seq<seq<real>>>): (dx: seq<seq<seq<real>>>)
    requires Valid(l) && Shaped(topDiff, l.num, l.channels, DstCount(l.plan))
    ensures Shaped(dx, l.num, l.channels, SrcCount(l.plan))
    ensures forall n :: 0 <= n < l.num ==> dx[n] == SampleBackward(l, n, topDiff[n])
  {
    seq(l.num, (n: nat) => SampleBackwardAt(l, topDiff, n))
  }

  /**
   * Backward pass: with propagation off the bottom gradient is left as it
   * was; with it on, every slice of the bottom gradient is overwritten by
   * the slice pass of the same slice of the top gradient, whatever it held.
   */
  function Backward(l: Layer, propagateDown: bool, topDiff: seq<seq<seq<real>>>, bottomDiff: seq<seq<seq<real>>>)
    : (dx: seq<seq<seq<real>>>)
    requires Valid(l) && Shaped(topDiff, l.num, l.channels, DstCount(l.plan))
    requires Shaped(bottomDiff, l.num, l.channels, SrcCount(l.plan))
    ensures Shaped(dx, l.num, l.channels, SrcCount(l.plan))
    ensures !propagateDown ==> dx == bottomDiff
    ensures propagateDown ==> forall n :: 0 <= n < l.num ==> dx[n] == SampleBackward(l, n, topDiff[n])
  {
    if propagateDown then Gradient(l, topDiff) else bottomDiff
  }

  /** Inner product of two blobs, summed slice by slice. */
  function BlobDot(a: seq<seq<seq<real>>>, b: seq<seq<seq<real>>>): real
  {
    Sum(|a|, (n: nat) => if n < |a| && n < |b| then SampleDot(a[n], b[n]) else 0.0)
  }

  /** Inner product of the slices of one sample. */
  function SampleDot(a: seq<seq<real>>, b: seq<seq<real>>): real
  {
    Sum(|a|, (c: nat) => if c < |a| && c < |b| then Dot(a[c], b[c]) else 0.0)
  }

  /** Sample n of the passes is adjoint: summed over its slices, <Forward(x), dy> == <x, Backward(dy)>. */
  lemma SampleAdjoint(l: Layer, x: seq<seq<seq<real>>>, dy: seq<seq<seq<real>>>, n: nat)
    requires Valid(l) && Shaped(x, l.num, l.channels, SrcCount(l.plan))
    requires Shaped(dy, l.num, l.channels, DstCount(l.plan)) && n < l.num
    ensures SampleDot(Forward(l, x)[n], dy[n]) == SampleDot(x[n], Backward(l, true, dy, x)[n])
  {
    var y, dx := SampleForward(l, n, x[n]), SampleBackward(l, n, dy[n]);
    forall c | 0 <= c < l.channels
      ensures Dot(y[c], dy[n][c]) == Dot(x[n][c], dx[c])
    {
      SliceAdjoint(l, n, x[n][c], dy[n][c]);
    }
    SumExt(l.channels, (c: nat) => if c < |y| && c < |dy[n]| then Dot(y[c], dy[n][c]) else 0.0,
                       (c: nat) => if c < |x[n]| && c < |dx| then Dot(x[n][c], dx[c]) else 0.0);
  }

  /**
   * The backward pass computes the gradient of the forward pass: for every
   * method, <Forward(x), dy> == <x, Backward(dy)> over the whole blobs.
   */
  lemma Adjoint(l: Layer, bottom: seq<seq<seq<real>>>, topDiff: seq<seq<seq<real>>>, bottomDiff: seq<seq<seq<real>>>)
    requires Valid(l) && Shaped(bottom, l.num, l.channels, SrcCount(l.plan))
    requires Shaped(topDiff, l.num, l.channels, DstCount(l.plan))
    requires Shaped(bottomDiff, l.num, l.channels, SrcCount(l.plan))
    ensures BlobDot(Forward(l, bottom), topDiff) == BlobDot(bottom, Backward(l, true, topDiff, bottomDiff))
  {
    var y, dx := Forward(l, bottom), Backward(l, true, topDiff, bottomDiff);
    assert dx == Backward(l, true, topDiff, bottom);
    forall n | 0 <= n < l.num
      ensures SampleDot(y[n], topDiff[n]) == SampleDot(bottom[n], dx[n])
    {
      SampleAdjoint(l, bottom, topDiff, n);
    }
    SumExt(l.num, (n: nat) => if n < |y| && n < |topDiff| then SampleDot(y[n], topDiff[n]) else 0.0,
                  (n: nat) => if n < |bottom| && n < |dx| then SampleDot(bottom[n], dx[n]) else 0.0);
  }

  /**
   * GROUP keeps the input grid, and its backward pass is its forward pass
   * applied to the top gradient: the operator is self-adjoint.
   */
  lemma GroupGradientIsForward(l: Layer, topDiff: seq<seq<seq<real>>>)
    requires Valid(l) && l.unpool == Group && Shaped(topDiff, l.num, l.channels, DstCount(l.plan))
    ensures DstCount(l.plan) == SrcCount(l.plan)
    ensures Gradient(l, topDiff) == Forward(l, topDiff)
  {
    assert OutHeight(l.plan) == l.plan.height && OutWidth(l.plan) == l.plan.width;
    var dx, y := Gradient(l, topDiff), Forward(l, topDiff);
    forall n | 0 <= n < l.num
      ensures dx[n] == y[n]
    {
      forall c | 0 <= c < l.channels
        ensures dx[n][c] == y[n][c]
      {
        assert dx[n][c] == GroupSliceBackward(l, n, topDiff[n][c]);
      }
    }
  }
}

=== FILE: wrappers.dfy ===
/** Failure-compatible Option and Result types, used for the layers' configuration errors. */
module Wrappers {

  datatype Option<+T> = None | Some(value: T) {
    function GetOr(default: T): T {
      match this
      case Some(v) => v
      case None => default
    }
  }

  datatype Result<+R, +E> = Success(value: R) | Failure(error: E) {
    predicate IsFailure() {
      Failure?
    }

    function PropagateFailure<U>(): Result<U, E>
      requires Failure?
    {
      Failure(error)
    }

    function Extract(): R
      requires Success?
    {
      value
    }
  }
}
